=== FILE: README.md ===
# SurtiGO fuel-station finder: a Dafny model

SurtiGO shows the fuel stations around the user on a map and in a list. It sorts
them by the price of the selected fuel and marks the cheapest ones. The model covers:

- **`fuel.service.ts` (the station catalogue).** The derived views `filteredStations`,
  `sortedStations` and `averagePrice`, the per-fuel price lookup, the mapping of the
  API's records, and the state changes of the three loading operations.
- **`map-view.ts`.** What each marker, icon and popup shows, the camera move chosen
  by `fitView` and by the highlight, the search-centre pin, the tile set, the four
  render effects and the long-press timer.
- **`stats-bar.ts` and `station-card.ts`.** The figures shown beside the list.
- **`brand-logos.ts`.** The brand logo and colour lookups over their ordered tables.
- **`theme.service.ts`.** The light / dark / system mode.
- **`geolocation.service.ts`.** The location request state machine.
- **`navbar.ts`.** The rule that starts a geocoding search.

Conventions:

- Prices are whole thousandths of a euro (`Option<nat>`). An absent price is `None`;
  a price of zero stays `Some(0)`, because the code treats it differently in
  different places.
- Coordinates and distances are `real`.
- Every answer from a collaborator is a parameter of the operation that receives it:
  HTTP responses, geocoder results, the position sensor, local storage, the colour
  preference and the map's screen-to-coordinate projection.
- The haversine distance is an uninterpreted function parameter.

Modules follow the source files:

- `Stations`, `PriceOrder` and `Catalog` for the service;
- `MapView` and `LongPress` for the map;
- `StatsBar`, `StationCard` and `Navbar` for the components;
- `BrandLogos`, `Theme` and `Geolocation`.

The helper modules are:

- `Seqs`: a filter with exact multiplicities, and a sum that is invariant under
  permutation;
- `Text`: trimming with the JavaScript white-space set, ASCII case mapping, and
  `includes`;
- `Format`: `Math.round`, three-decimal rounding, and the metres / kilometres label.

`Scenarios` checks the worked examples end to end.

Behaviour of the code that is easy to misread:

- **Top marker.** A marker is "top" when its index is below 3 *and* it has a price
  (`map-view.ts:226`), not for every rank up to 3.
- **Cheap marker.** "Cheap" also needs a positive average and a present price
  (`map-view.ts:225`).
- **Theme modes.** The theme mode is not validated. `loadSavedTheme` returns any
  stored string, and `resolve` passes every string other than "system" through. So
  `resolvedTheme` can hold a value other than "light" or "dark", despite its type
  annotation (`Theme.UnknownStoredModePassesThrough`).
- **Declared types.** `gas-station.interface.ts` lists two fuel types and lacks
  fields that the code reads and writes. The model uses the five fuel types the code
  switches on, and the record that `mapRadioResponse` builds.

Modelling choices:

- **Map input.** The map is assumed to receive the sorted catalogue view as its
  `stations` input (`MapView.CatalogMarkers`). The component that wires them together
  is not part of this model.
- **Environment.** `environment.ts` is not part of this model. The default radius is
  a parameter of `Catalog.Initial`.
- **Viewport test.** The map library's bounds test is modelled as a closed
  latitude / longitude rectangle (`MapView.Inside`).
- **Timer handles.** The long-press timer is kept as real handles. The component
  stores only the latest handle, so a release cancels only the latest timer
  (`LongPress.OverwrittenTimerStillReports`). The component does not listen for
  `touchcancel`.
- **Storage for `setTheme`.** `setTheme` sets the mode before it calls
  `localStorage.setItem` (`theme.service.ts:33-34`). Without storage that call throws
  after the mode has changed, so the mode effect still applies the new mode; only the
  saving is lost (`Theme.SetTheme`).
- **Empty coordinates.** A station at latitude 0 or longitude 0 is not among the
  points `fitView` frames. This follows from the truthiness test at `map-view.ts:296`
  (`MapView.ZeroCoordinateIsNotFitted`).

## Model

| member | source | states |
|---|---|---|
| Seqs.Filter | src/app/services/fuel.service.ts:38-44 | `Array.filter`: every kept element satisfies the predicate, and each element occurs in the result exactly as often as in the input if it satisfies it, otherwise not at all |
| Seqs.FilterIsSubsequence | src/app/services/fuel.service.ts:38-44 | the filter keeps the input order |
| Seqs.SumOfPermutation | src/app/services/fuel.service.ts:69 | a sum over a list does not depend on the order of its elements |
| Text.Trim | src/app/services/fuel.service.ts:33 | the trimmed string is a slice of the input with white space only around it and no white space at either end; it is empty iff the input is all white space |
| Text.ToLower | src/app/services/fuel.service.ts:33 | lower-casing keeps the length and maps every character by itself |
| Text.ToUpper | src/app/constants/brand-logos.ts:76 | upper-casing keeps the length and maps every character by itself |
| Text.Contains | src/app/services/fuel.service.ts:40-43 | `includes` holds iff the needle occurs at some position of the haystack |
| Text.NormalizeIgnoresCase | src/app/constants/brand-logos.ts:76 | upper-casing then trimming gives the same result for a string and its lower-cased form |
| Text.NormalizeIgnoresPadding | src/app/constants/brand-logos.ts:76 | surrounding white space does not change the upper-cased, trimmed form |
| Text.NormalizeIdempotent | src/app/constants/brand-logos.ts:76 | upper-casing and trimming a second time changes nothing |
| Text.NormalizeBlank | src/app/constants/brand-logos.ts:96 | a blank brand upper-cases and trims to the empty string |
| Text.TrimPadding | src/app/services/fuel.service.ts:33 | trimming ignores white space added on either side |
| Format.RoundHalfUp | src/app/components/station-card/station-card.ts:40 | `Math.round` gives an integer within half a unit of the value, a half rounded up |
| Format.RoundHalfUpUnique | src/app/components/station-card/station-card.ts:40 | that integer is the only one so close, so the rounding is determined |
| Format.Round3 | src/app/services/fuel.service.ts:211 | the distance rounded to three decimals is within half a metre of the original and a whole number of metres |
| Format.FormatDistance | src/app/components/station-card/station-card.ts:37-41 | the label is in metres iff the distance is below 1 km; metres are the rounded distance ×1000 (at most 1000), tenths of km the rounded distance ×10 (at least 10) |
| Format.MetreLabelReachesOneThousand | src/app/components/station-card/station-card.ts:40 | just under 1 km the label reads 1000 m, while at 1 km it reads 1.0 km |
| Geolocation.ErrorMessage | src/app/services/geolocation.service.ts:40-45 | codes 1, 2 and 3 each get their own message and every other code the generic one, in both directions |
| Geolocation.BeginRequest | src/app/services/geolocation.service.ts:26-27 | starting a request sets locating, clears the error and keeps the location |
| Geolocation.RequestLocation | src/app/services/geolocation.service.ts:18-56 | without a sensor only the unsupported message is set and null returned; on success the location is stored and returned; on error the code's message is set and the location kept; locating ends either way |
| Geolocation.DistanceFromUser | src/app/services/geolocation.service.ts:87-91 | null iff there is no location, else the distance function applied from the user to the point |
| Geolocation.FailureKeepsLocation | src/app/services/geolocation.service.ts:39-48 | a failed request never forgets an earlier location |
| Geolocation.SettledRequestLocation | src/app/services/geolocation.service.ts:12-56 | after a request with a sensor, `hasLocation` holds iff this request succeeded or a location was already known |
| Stations.GetPriceReadsOwnField | src/app/services/fuel.service.ts:73-81 | `getPrice` reads the field written for its own fuel type and no other: writing one fuel's price changes that fuel's lookup only |
| PriceOrder.Comparator | src/app/services/fuel.service.ts:52-56 | the comparator's sign is -1, 0 or 1, with a missing price as +Infinity and two missing prices equal |
| PriceOrder.ComparatorIsConsistent | src/app/services/fuel.service.ts:52-56 | the comparator agrees with the key order, is antisymmetric, and the key order is total and transitive |
| PriceOrder.SortByPrice | src/app/services/fuel.service.ts:48-57 | the sorted view is a permutation of its input, of the same length, non-decreasing by the selected price with missing prices last |
| PriceOrder.PricedBeforeUnpriced | src/app/services/fuel.service.ts:53-54 | in a sorted list every priced station precedes every unpriced one |
| PriceOrder.SortIsStable | src/app/services/fuel.service.ts:52-56 | stations with equal keys, missing prices included, keep their relative order |
| Catalog.NormalizedQueryEmpty | src/app/services/fuel.service.ts:33-36 | the lower-cased, trimmed query is empty iff the query is white space only |
| Catalog.FilterStations | src/app/services/fuel.service.ts:32-45 | a blank query returns the list unchanged; otherwise each station occurs as often as in the input if its name, address, locality or province contains the query and not at all otherwise, in input order |
| Catalog.AbsentFieldsNeverMatch | src/app/services/fuel.service.ts:42-43 | a missing locality or province never matches |
| Catalog.AveragePrice | src/app/services/fuel.service.ts:60-70 | 0 without positive prices, else the mean of the positive prices rounded half up to a thousandth |
| Catalog.AverageZeroIffNoPrices | src/app/services/fuel.service.ts:64-68 | the average is 0 iff no station has a positive price for the fuel |
| Catalog.AverageBetween | src/app/services/fuel.service.ts:60-70 | the average lies between any bounds of the positive prices, hence between their minimum and maximum |
| Catalog.AverageOrderIndependent | src/app/services/fuel.service.ts:60-70 | the average does not depend on the order of the stations |
| Catalog.SortedViewIsFilteredView | src/app/services/fuel.service.ts:48-70 | the sorted view is a price-sorted permutation of the filter result, and the average shown over it equals the average over the unsorted filter result |
| Catalog.MapRadioItem | src/app/services/fuel.service.ts:201-221 | each record keeps id and position, a missing name becomes "Estación desconocida" and a missing address "", the distance is rounded half up to a whole metre (`Format.Round3`) and stays absent when absent, each price comes from its own field |
| Catalog.MapRadioResponse | src/app/services/fuel.service.ts:200-222 | the mapping keeps the length and order of the records |
| Catalog.Initial | src/app/services/fuel.service.ts:21-29 | the catalogue starts empty, not loading, without error, on Gasolina 95 with an empty query, no search centre and the default radius |
| Catalog.BeginLoadByRadius | src/app/services/fuel.service.ts:86-90 | before the answer, loading is set, the error cleared, the centre and radius recorded, the list kept |
| Catalog.FinishLoad | src/app/services/fuel.service.ts:102-111 | on success the list is replaced; on failure the message is set and the list emptied; loading ends either way |
| Catalog.LoadStationsByRadius | src/app/services/fuel.service.ts:86-112 | after the answer: not loading, centre and radius recorded, the mapped records on success, the fixed message and no stations on failure |
| Catalog.BeginLoadByMunicipio | src/app/services/fuel.service.ts:132-134 | before the answer, loading is set and the error cleared; the list, centre, radius, query and fuel are untouched |
| Catalog.LoadStationsByMunicipio | src/app/services/fuel.service.ts:132-155 | the centre, radius, query and selected fuel never change; on success each station's distance is recomputed from the user (absent without a location); on failure its own message and no stations |
| Catalog.SearchByLocation | src/app/services/fuel.service.ts:174-195 | a blank query and an empty or failed geocode change nothing; otherwise the query is cleared and stations are loaded around the first result with the unchanged radius |
| StatsBar.StationCount | src/app/components/stats-bar/stats-bar.ts:56 | the count equals the number of stations the filter keeps |
| StatsBar.MinPositive | src/app/components/stats-bar/stats-bar.ts:59-66 | null iff no positive price; otherwise a positive price of some station, no larger than any positive price |
| StatsBar.SavingsOnTank | src/app/components/stats-bar/stats-bar.ts:68-73 | 0 without a cheapest price, with a zero one or a zero average; otherwise 50 litres times the difference |
| StatsBar.SavingsNeverNegative | src/app/components/stats-bar/stats-bar.ts:59-73 | the cheapest price never exceeds the average, so the saving is never negative |
| StatsBar.CheapestIffAverage | src/app/components/stats-bar/stats-bar.ts:57-66 | there is a cheapest price iff the average is not 0 |
| StationCard.CurrentPrice | src/app/components/station-card/station-card.ts:18-22 | the diesel price when diesel is selected, the Gasolina 95 price for every other selection |
| StationCard.CardPriceAgreesWithCatalog | src/app/components/station-card/station-card.ts:18-22 | the card shows the catalogue's price iff the selection is diesel or Gasolina 95 or the two prices coincide |
| StationCard.FuelLabel | src/app/components/station-card/station-card.ts:25-27 | "Diésel" iff diesel is selected, "Gasolina 95" otherwise |
| StationCard.CardIsCheap | src/app/components/station-card/station-card.ts:30-34 | cheap iff the card's price is present, the average positive and the price below it |
| StationCard.FormattedDistance | src/app/components/station-card/station-card.ts:37-41 | null iff the distance is absent, else metres iff below 1 km |
| Navbar.OnSearchKeydown | src/app/components/navbar/navbar.ts:26-33 | only Enter, with a non-blank trimmed query and an empty filter result, searches, and with the trimmed query |
| Navbar.SearchOnlyWithoutMatches | src/app/components/navbar/navbar.ts:28-30 | a search starts only when no loaded station matches the query, and its query is never blank |
| Navbar.SubmitSearch | src/app/components/navbar/navbar.ts:26-33 | any other key or query leaves the catalogue unchanged, and so does a failed or empty geocode; a successful geocode clears the query, recentres on the first result with the same radius, and loads the mapped stations (or none and the radius error message when the load fails), keeping the fuel type |
| Theme.IndexOf | src/app/services/theme.service.ts:39 | `indexOf` gives the first position of the mode, or -1 iff it is absent |
| Theme.NextMode | src/app/services/theme.service.ts:37-42 | system goes to light, light to dark, dark to system, any other string to system |
| Theme.CycleReturns | src/app/services/theme.service.ts:37-42 | one cycle always lands on a real mode and three cycles return to the start |
| Theme.Resolve | src/app/services/theme.service.ts:49-54 | "system" resolves to dark iff the preference is dark, every other mode to itself |
| Theme.LoadSavedTheme | src/app/services/theme.service.ts:44-47 | "dark" without storage or a stored value, otherwise the stored string unchecked |
| Theme.Construct | src/app/services/theme.service.ts:8-15 | the initial mode is the saved one, resolved before the media query exists |
| Theme.ApplyTheme | src/app/services/theme.service.ts:56-58 | applying sets the resolved theme to the resolution of the mode and changes nothing else |
| Theme.Start | src/app/services/theme.service.ts:8-29 | after the first mode effect the theme is applied, light or dark for a real mode |
| Theme.SetTheme | src/app/services/theme.service.ts:32-35 | the mode is set and applied; with storage it is stored under the theme key so it loads back, without storage nothing is stored |
| Theme.CycleTheme | src/app/services/theme.service.ts:37-42 | cycling sets the next mode, which is real and resolves to light or dark |
| Theme.OnSystemPreferenceChange | src/app/services/theme.service.ts:19-23 | a preference change re-applies only in system mode; other modes keep their resolved theme |
| Theme.OperationsKeepThemeApplied | src/app/services/theme.service.ts:19-35 | setting, cycling and preference changes all keep the resolved theme equal to the mode's resolution |
| Theme.SystemModeStartsLight | src/app/services/theme.service.ts:11-15 | a stored "system" first resolves to light even when dark is preferred, and the mode effect corrects it |
| Theme.UnknownStoredModePassesThrough | src/app/services/theme.service.ts:44-54 | an unknown stored string becomes the resolved theme, and cycling from it goes to system |
| BrandLogos.ExactLookup | src/app/constants/brand-logos.ts:79 | the table lookup finds a value iff some key equals the name, and then one stored under it |
| BrandLogos.FirstContained | src/app/constants/brand-logos.ts:84-86 | none iff no key occurs in the name, else the value of the earliest key that occurs |
| BrandLogos.AutoSlug | src/app/constants/brand-logos.ts:90 | the slug is the lower-cased name with every character outside a-z and 0-9 removed, in order; so it holds only those characters and is no longer than the name |
| BrandLogos.PrecioilUrl | src/app/constants/brand-logos.ts:80 | the address is the precioil.es base, "/", the slug and ".webp", so the slug can be read back from between them |
| BrandLogos.GetBrandLogoUrl | src/app/constants/brand-logos.ts:74-92 | the generic image for an absent or empty brand; otherwise the precioil.es base, "/", and ".webp" around the slug of the upper-cased, trimmed brand |
| BrandLogos.LogoOf | src/app/constants/brand-logos.ts:79-91 | the exact override first, else the override of the earliest contained key, else the automatic slug |
| BrandLogos.GetBrandLogo | src/app/constants/brand-logos.ts:74-92 | the generic logo iff the brand is absent or empty, otherwise the logo of the upper-cased, trimmed brand |
| BrandLogos.SameNormalFormSameLogo | src/app/constants/brand-logos.ts:76 | brands with the same upper-cased, trimmed form get the same logo |
| BrandLogos.LogoIgnoresCaseAndPadding | src/app/constants/brand-logos.ts:76 | case and surrounding white space do not change the logo |
| BrandLogos.LogoIgnoresCase | src/app/constants/brand-logos.ts:76 | lower- or upper-casing a brand does not change its logo |
| BrandLogos.LogoIgnoresPadding | src/app/constants/brand-logos.ts:76 | white space around a brand does not change its logo |
| BrandLogos.ExactOverrideWins | src/app/constants/brand-logos.ts:79-81 | "LOW COST REPOST" takes "lowcost" from its exact entry; the earlier key "LOW COST" names the same slug, so this table cannot show the exact-first order, which `BrandLogos.LogoOf` states in general |
| BrandLogos.ContainedOverrideApplies | src/app/constants/brand-logos.ts:84-86 | a brand that merely contains an override key takes that key's slug |
| BrandLogos.FirstContainedOr | src/app/constants/brand-logos.ts:95-100 | `getBrandColor`'s scan: the default when no key occurs, else the colours of the earliest key that occurs |
| BrandLogos.EmptyFallsBack | src/app/constants/brand-logos.ts:96-100 | no non-empty key occurs in an empty brand, so the scan returns its default |
| BrandLogos.MissingBrandIsGray | src/app/constants/brand-logos.ts:96-100 | a missing or blank brand is gray |
| BrandLogos.ColorIgnoresCaseAndPadding | src/app/constants/brand-logos.ts:96 | case and surrounding white space do not change the colour |
| BrandLogos.EarlierColorKeyWins | src/app/constants/brand-logos.ts:97-99 | of two keys in the name, the earlier in the table decides |
| MapView.FuelLabel | src/app/components/map-view/map-view.ts:19-25 | every fuel has a heading of at least three characters |
| MapView.FuelLabelsDistinct | src/app/components/map-view/map-view.ts:19-25 | two fuels share a heading iff they are the same fuel |
| MapView.CreateBrandIcon | src/app/components/map-view/map-view.ts:170-199 | 38 px, orange-bordered and ranked iff top, else 30 px; green iff cheap and not top; the brand's logo; box 12 px wider than the logo and centred; popup 4 px above it |
| MapView.RowsOfSound | src/app/components/map-view/map-view.ts:246-251 | every price row names a listed fuel with a truthy price and carries that price |
| MapView.RowsOfComplete | src/app/components/map-view/map-view.ts:246-251 | every listed fuel with a truthy price has a row |
| MapView.RowsOfOrdered | src/app/components/map-view/map-view.ts:246-251 | rows appear in the order the fuels are listed |
| MapView.PriceRows | src/app/components/map-view/map-view.ts:246-251 | the rows are exactly the truthy prices, with their values and short names, in the order G95, G98, Diésel, D.Prem, GLP |
| MapView.PlaceLine | src/app/components/map-view/map-view.ts:259 | locality and province, separated only when both are there; empty iff neither is |
| MapView.BuildPopup | src/app/components/map-view/map-view.ts:233-286 | rank badge iff top; the station's name; the place line; the selected fuel's heading; the price iff truthy, else "Sin datos"; highlighted iff cheap; brand badge iff the brand is truthy; the card's distance label; the price table iff more than one row; the hours iff truthy |
| MapView.PriceTableNeedsTwoPrices | src/app/components/map-view/map-view.ts:269 | a station with two truthy prices shows the table |
| MapView.RenderMarkers | src/app/components/map-view/map-view.ts:221-229 | one marker per station in order, at its position; rank i+1; top iff i < 3 and priced; cheap iff priced below a positive average; the icon and popup are built from that rank and classification |
| MapView.AtMostThreeTop | src/app/components/map-view/map-view.ts:226 | only the first three ranks can be top |
| MapView.SortedMarkers | src/app/components/map-view/map-view.ts:223-227 | on a price-sorted list, top markers and cheap markers each form a prefix |
| MapView.TopMarkersAreCheapest | src/app/components/map-view/map-view.ts:225-226 | on a sorted list every top station costs no more than any other station |
| MapView.CatalogMarkersCheapFirst | src/app/components/map-view/map-view.ts:222-227 | on the catalogue's sorted view, cheap and top markers come first |
| MapView.StationPoints | src/app/components/map-view/map-view.ts:295-297 | a point belongs to the list iff it is the position of a station with both coordinates non-zero |
| MapView.StationPointsAreFiltered | src/app/components/map-view/map-view.ts:295-297 | the list is those stations' positions, one per station in order, even where two share a position |
| MapView.FitPoints | src/app/components/map-view/map-view.ts:295-302 | the stations' points first, then the user's point when there is one, then the search centre's last when there is one; a point occurs iff it is one of these |
| MapView.BoundingBox | src/app/components/map-view/map-view.ts:305 | the rectangle contains every point and each edge touches one |
| MapView.FitView | src/app/components/map-view/map-view.ts:293-309 | no move without points; SetView at zoom 13 on a single point; otherwise FitBounds with padding 40 and max zoom 14 to the bounding rectangle of all points |
| MapView.FitViewShowsEverything | src/app/components/map-view/map-view.ts:304-305 | a fitted rectangle holds every located station, the user and the search centre |
| MapView.ZeroCoordinateIsNotFitted | src/app/components/map-view/map-view.ts:296 | a station at longitude 0 is left out of the fitted points |
| MapView.SearchCenterPin | src/app/components/map-view/map-view.ts:150-167 | a pin at the centre iff there is one and it differs from the user by more than 0.001 degrees on some axis or there is no user |
| MapView.SearchCenterPinExamples | src/app/components/map-view/map-view.ts:157 | a centre on the user draws no pin; 0.1 degrees away, or without a user, it does |
| MapView.UpdateHighlight | src/app/components/map-view/map-view.ts:311-333 | a ring iff there is a station, at its position; a pan to it iff it is outside the view |
| MapView.HighlightPanSettles | src/app/components/map-view/map-view.ts:327-331 | once the station is in view, highlighting it does not move the map |
| MapView.TilesFor | src/app/components/map-view/map-view.ts:106 | the dark tiles iff the resolved theme is "dark", else the light ones |
| MapView.TilesFollowTheme | src/app/components/map-view/map-view.ts:80-84 | with the theme applied, the tiles are dark in dark mode, light in light mode, and follow the preference in system mode |
| MapView.InitMap | src/app/components/map-view/map-view.ts:95-111 | the map becomes ready with the theme's tiles and the camera on Madrid at zoom 6 |
| MapView.DataEffect | src/app/components/map-view/map-view.ts:63-70 | a no-op until ready; then the markers, the user dot and the fitted view, leaving the other layers |
| MapView.HighlightEffect | src/app/components/map-view/map-view.ts:73-77 | a no-op until ready; then only the highlight and its pan |
| MapView.ThemeEffect | src/app/components/map-view/map-view.ts:80-84 | a no-op until ready; then only the tile layer |
| MapView.SearchCenterEffect | src/app/components/map-view/map-view.ts:87-92 | a no-op until ready; then only the search-centre pin |
| MapView.EffectsCommute | src/app/components/map-view/map-view.ts:62-92 | the layers drawn do not depend on the order the effects run in; nor does the data effect's camera request, or the highlight's for a given view |
| MapView.EffectsIdempotent | src/app/components/map-view/map-view.ts:62-92 | replaying an effect draws the same layers |
| LongPress.ClearLatest | src/app/components/map-view/map-view.ts:135-136 | `clearTimeout` cancels the latest handle and no other timer |
| LongPress.Step | src/app/components/map-view/map-view.ts:114-136 | a location is reported iff the event is a double click, a context menu or a pending timer firing; one-finger touches arm a fresh timer; other touch counts change nothing; release, move and destroy clear the latest timer; a firing timer removes only its own handle from the pending set, and a stale handle changes nothing |
| LongPress.ReportsAreBounded | src/app/components/map-view/map-view.ts:126-136 | reports plus timers still pending never exceed the clicks, the timers armed and the timers pending at the start, so each timer reports at most once |
| LongPress.StepIsBounded | src/app/components/map-view/map-view.ts:114-136 | one event reports at most once per click or pending timer and arms at most one timer |
| LongPress.ReleasedPressReportsNothing | src/app/components/map-view/map-view.ts:135-136 | a press released or moved before the timer fires reports nothing |
| LongPress.HeldPressReports | src/app/components/map-view/map-view.ts:128-132 | a press held until the timer fires reports the projected touch point |
| LongPress.SecondFingerKeepsTimer | src/app/components/map-view/map-view.ts:127 | a second finger does not cancel the armed one-finger timer, which still reports |
| LongPress.OverwrittenTimerStillReports | src/app/components/map-view/map-view.ts:128 | an earlier timer whose handle was overwritten survives the release and still reports |
| Scenarios.AverageOfThreePrices | src/app/services/fuel.service.ts:60-70 | prices 1.500, 1.700, none, 1.600 average to 1.600 |
| Scenarios.SortFour | src/app/services/fuel.service.ts:52-56 | diesel prices 1.450, 1.300, 1.600, none sort to 1.300, 1.450, 1.600, none |
| Scenarios.DieselSortOrder | src/app/services/fuel.service.ts:48-57 | the four example stations sort to the second, first, third, then the unpriced fourth |
| Scenarios.AverageFour | src/app/services/fuel.service.ts:60-70 | prices 1.300, 1.450, 1.600, none average to 1.450 |
| Scenarios.MarkersFour | src/app/components/map-view/map-view.ts:223-227 | against an average of 1.450 the first three are top and only 1.300 is cheap |
| Scenarios.LoadedExample | src/app/services/fuel.service.ts:201-221 | the example answer maps to the four stations |
| Scenarios.DieselSearchEndToEnd | src/app/services/fuel.service.ts:48-70 | after loading the example, the sorted view, the average 1.450 and the markers are as expected |
| Scenarios.FilterKeepsMatch | src/app/services/fuel.service.ts:38-44 | of two stations the query keeps exactly the matching one |
| Scenarios.MadridQuery | src/app/services/fuel.service.ts:32-45 | "madrid" keeps the station in "Madrid" and drops the one in "Barcelona" |

## Left out

- HTTP requests, the Nominatim query string, `parseFloat` and the RxJS plumbing. Answers are parameters (`Catalog.Fetch`), and the geocoder's result is already a coordinate pair.
- The ordering of overlapping loads (the last answer wins) and Angular signal and effect scheduling. Each operation is modelled as if its answer arrives before the next operation.
- The haversine `calculateDistance` and `toRad`, which are floating-point trigonometry. The distance is an uninterpreted function parameter.
- Leaflet itself: map creation, `fitBounds`, `panTo`, `getBounds`, `containerPointToLatLng` and `invalidateSize`. The model returns the camera action chosen, and the projection is a parameter.
- The HTML, CSS and inline styles of icons, popups and pins, the shadows, and the `onerror` fallback to the generic logo image.
- The text of `GENERIC_LOGO`, a URI-encoded SVG. It is represented by `BrandLogos.GenericLogo`, and `BrandLogos.GetBrandLogoUrl` takes it as a parameter.
- DOM, `localStorage` and `matchMedia` side effects of `applyTheme`: the class list, colour scheme and meta theme colour.
- The real clock: the 700 ms delay and the 100 ms `invalidateSize` delay. A timer fires when the event sequence says so.
- Unicode case mapping beyond ASCII, and the binary floating-point behaviour of `toFixed` and `Math.round`. Rounding is done exactly on reals.
- `loadProvincias` and `loadPreciosMediosProvincia`, which pass fetch results through without logic.
- `stationClicked` emission on marker click, and the Google, Waze and Apple link texts. The popup records only the destination point.
- BrandLogos.GetBrandColor: carries no contract of its own. Its behaviour is stated by `BrandLogos.FirstContainedOr` and the colour lemmas, because unfolding the 25-entry table in a contract is too costly to check.
- MapView.EffectsCommute: the order of the camera moves is not modelled. When the data effect fits the view before the highlight effect runs, the highlight's in-view test reads the fitted view, so whether it pans depends on the order.
- Theme.SetTheme: the exception `localStorage.setItem` throws without storage is not modelled; only the state it leaves behind is.
- MapView.FuelLabel: its contract states only that the headings are non-trivial and pairwise distinct (`MapView.FuelLabelsDistinct`), not the exact strings.

=== FILE: brand_logos.dfy ===
/**
 * Brand logos and colours (brand-logos.ts): lookups over two ordered
 * tables keyed by upper-case brand fragments.  Object key order is
 * insertion order, so each table is a sequence of pairs.
 */
module BrandLogos {
  import opened Wrappers
  import opened Text
  import Seqs

  const PRECIOIL_BASE := "https://precioil.es/datos/imagenes/selector"

  /** `BRAND_SLUG_OVERRIDES`, in declaration order. */
  const BRAND_SLUG_OVERRIDES: seq<(string, string)> := [
    ("E.LECLERC", "e.leclerc"),
    ("ELECLERC", "e.leclerc"),
    ("GALP&GO", "galp"),
    ("LOW COST", "lowcost"),
    ("LOW COST REPOST", "lowcost"),
    ("STAR PETROLEUM", "star"),
    ("NOVEL OIL SYSTEM", "novel"),
    ("OIL+", "oil"),
    ("SIMON GRUP", "simon")
  ]

  datatype Colors = Colors(bg: string, fg: string)

  const GRAY := Colors("#6B7280", "#fff")

  /** `BRAND_COLORS`, in declaration order. */
  const BRAND_COLORS: seq<(string, Colors)> := [
    ("REPSOL", Colors("#EE3524", "#fff")),
    ("BP", Colors("#009A44", "#fff")),
    ("CEPSA", Colors("#E31837", "#fff")),
    ("SHELL", Colors("#DD1D21", "#fff")),
    ("GALP", Colors("#FF5A00", "#fff")),
    ("MOEVE", Colors("#1E3A8A", "#fff")),
    ("BALLENOIL", Colors("#0891B2", "#fff")),
    ("ALCAMPO", Colors("#DC2626", "#fff")),
    ("CARREFOUR", Colors("#004E98", "#fff")),
    ("PETROPRIX", Colors("#16A34A", "#fff")),
    ("E.LECLERC", Colors("#0057A8", "#fff")),
    ("PLENERGY", Colors("#059669", "#fff")),
    ("PLENOIL", Colors("#0D9488", "#fff")),
    ("Q8", Colors("#008751", "#fff")),
    ("ENI", Colors("#FDE047", "#333")),
    ("STAR", Colors("#B91C1C", "#fff")),
    ("DISA", Colors("#1B3A5C", "#fff")),
    ("AVIA", Colors("#1D4ED8", "#fff")),
    ("CAMPSA", Colors("#DC2626", "#FDE047")),
    ("EROSKI", Colors("#EA580C", "#fff")),
    ("BONAREA", Colors("#65A30D", "#fff")),
    ("MEROIL", Colors("#0284C7", "#fff")),
    ("SCAT", Colors("#0F766E", "#fff")),
    ("ZOILO", Colors("#6D28D9", "#fff")),
    ("LOW COST", Colors("#F59E0B", "#333"))
  ]

  /** `table[key]` on an object literal: the value stored under exactly that key. */
  function ExactLookup<V>(table: seq<(string, V)>, key: string): (r: Option<V>)
    ensures r.None? <==> forall i :: 0 <= i < |table| ==> table[i].0 != key
    ensures r.Some? ==> exists i :: 0 <= i < |table| && table[i] == (key, r.value)
  {
    if table == [] then None
    else if table[0].0 == key then Some(table[0].1)
    else
      var r := ExactLookup(table[1..], key);
      assert forall i :: 1 <= i < |table| ==> table[i] == table[1..][i - 1];
      r
  }

  /** The value of the earliest key, in table order, that occurs in `m`. */
  function FirstContained<V>(table: seq<(string, V)>, m: string): (r: Option<V>)
    ensures r.None? <==> forall i :: 0 <= i < |table| ==> !Contains(m, table[i].0)
    ensures r.Some? ==> exists i :: 0 <= i < |table| && Contains(m, table[i].0) && table[i].1 == r.value
                                    && forall j :: 0 <= j < i ==> !Contains(m, table[j].0)
  {
    if table == [] then None
    else if Contains(m, table[0].0) then Some(table[0].1)
    else
      var r := FirstContained(table[1..], m);
      assert forall i :: 1 <= i < |table| ==> table[i] == table[1..][i - 1];
      r
  }

  predicate IsSlugChar(c: char) {
    'a' <= c <= 'z' || '0' <= c <= '9'
  }

  /** `m.toLowerCase().replace(/[^a-z0-9]/g, '')`. */
  function AutoSlug(m: string): (slug: string)
    ensures slug == Seqs.Filter(ToLower(m), IsSlugChar)
    ensures forall i :: 0 <= i < |slug| ==> IsSlugChar(slug[i])
    ensures |slug| <= |m|
  {
    if m == [] then []
    else
      var c := LowerChar(m[0]);
      var rest := AutoSlug(m[1..]);
      assert Seqs.Filter(ToLower(m), IsSlugChar) == (if IsSlugChar(c) then [c] else []) + rest by {
        LowerCons(m);
        Seqs.FilterCons(c, ToLower(m[1..]), IsSlugChar);
      }
      (if IsSlugChar(c) then [c] else []) + rest
  }

  /** A logo is the generic fuel-pump image or a precioil.es image named by a slug. */
  datatype Logo = GenericLogo | PrecioilLogo(slug: string)

  /** The address of a precioil.es logo. */
  function PrecioilUrl(slug: string): (url: string)
    ensures |url| == |PRECIOIL_BASE| + |slug| + 6
    ensures url[..|PRECIOIL_BASE|] == PRECIOIL_BASE && url[|PRECIOIL_BASE|] == '/'
    ensures url[|PRECIOIL_BASE| + 1..|url| - 5] == slug && url[|url| - 5..] == ".webp"
  {
    PRECIOIL_BASE + "/" + slug + ".webp"
  }

  /** The slug a precioil.es address names, read back from between the base and the extension. */
  function UrlSlug(url: string): string
    requires |url| >= |PRECIOIL_BASE| + 6
  {
    url[|PRECIOIL_BASE| + 1..|url| - 5]
  }

  /**
   * The logo of an already upper-cased, trimmed brand: the override stored
   * under exactly that name, else the override of the earliest key it
   * contains, else its automatic slug.
   */
  function LogoOf(m: string): (r: Logo)
    ensures r.PrecioilLogo?
    ensures ExactLookup(BRAND_SLUG_OVERRIDES, m).Some? ==> r.slug == ExactLookup(BRAND_SLUG_OVERRIDES, m).value
    ensures ExactLookup(BRAND_SLUG_OVERRIDES, m).None? && FirstContained(BRAND_SLUG_OVERRIDES, m).Some? ==>
              r.slug == FirstContained(BRAND_SLUG_OVERRIDES, m).value
    ensures ExactLookup(BRAND_SLUG_OVERRIDES, m).None? && FirstContained(BRAND_SLUG_OVERRIDES, m).None? ==>
              r.slug == AutoSlug(m)
  {
    match ExactLookup(BRAND_SLUG_OVERRIDES, m)
    case Some(slug) => PrecioilLogo(slug)
    case None =>
      match FirstContained(BRAND_SLUG_OVERRIDES, m)
      case Some(slug) => PrecioilLogo(slug)
      case None => PrecioilLogo(AutoSlug(m))
  }

  /** `getBrandLogoUrl`: the generic logo for a missing or empty brand, else the logo of its normalised form. */
  function GetBrandLogo(marca: Option<string>): (r: Logo)
    ensures r.GenericLogo? <==> marca.None? || marca.value == []
    ensures marca.Some? && marca.value != [] ==> r == LogoOf(Normalize(marca.value))
  {
    if marca.None? || marca.value == [] then GenericLogo
    else LogoOf(Normalize(marca.value))
  }

  /**
   * `getBrandLogoUrl`: the generic image's address (a data URI, given as
   * `generic`) for a missing or empty brand, else the precioil.es address
   * of the brand's slug.
   */
  function GetBrandLogoUrl(marca: Option<string>, generic: string): (url: string)
    ensures marca.None? || marca.value == [] ==> url == generic
    ensures marca.Some? && marca.value != [] ==>
      && |url| >= |PRECIOIL_BASE| + 6
      && url[..|PRECIOIL_BASE|] == PRECIOIL_BASE && url[|PRECIOIL_BASE|] == '/'
      && url[|url| - 5..] == ".webp"
      && UrlSlug(url) == LogoOf(Normalize(marca.value)).slug
  {
    match GetBrandLogo(marca)
    case GenericLogo => generic
    case PrecioilLogo(slug) => PrecioilUrl(slug)
  }

  /** Two non-empty brands with the same normalised form get the same logo. */
  lemma SameNormalFormSameLogo(x: string, y: string)
    requires x != [] && y != [] && Normalize(x) == Normalize(y)
    ensures GetBrandLogo(Some(x)) == GetBrandLogo(Some(y))
  {
  }

  /** The logo depends on the brand only through its normalised form, so case and padding do not matter. */
  lemma LogoIgnoresCaseAndPadding(pre: string, brand: string, post: string)
    requires brand != [] && AllWhitespace(pre) && AllWhitespace(post)
    ensures GetBrandLogo(Some(ToLower(brand))) == GetBrandLogo(Some(brand))
    ensures GetBrandLogo(Some(ToUpper(brand))) == GetBrandLogo(Some(brand))
    ensures GetBrandLogo(Some(pre + brand + post)) == GetBrandLogo(Some(brand))
  {
    LogoIgnoresCase(brand);
    LogoIgnoresPadding(pre, brand, post);
  }

  /** Lower- or upper-casing a brand keeps its logo. */
  lemma LogoIgnoresCase(brand: string)
    requires brand != []
    ensures GetBrandLogo(Some(ToLower(brand))) == GetBrandLogo(Some(brand))
    ensures GetBrandLogo(Some(ToUpper(brand))) == GetBrandLogo(Some(brand))
  {
    assert |ToLower(brand)| == |brand| && |ToUpper(brand)| == |brand|;
    NormalizeIgnoresCase(brand);
    SameNormalFormSameLogo(ToLower(brand), brand);
    UpperIdempotent(brand);
    SameNormalFormSameLogo(ToUpper(brand), brand);
  }

  /** White space around a brand does not change its logo. */
  lemma LogoIgnoresPadding(pre: string, brand: string, post: string)
    requires brand != [] && AllWhitespace(pre) && AllWhitespace(post)
    ensures GetBrandLogo(Some(pre + brand + post)) == GetBrandLogo(Some(brand))
  {
    var padded := pre + brand + post;
    assert padded != [] by {
      assert |padded| == |pre| + |brand| + |post|;
    }
    assert Normalize(padded) == Normalize(brand) by {
      NormalizeIgnoresPadding(pre, brand, post);
    }
    SameNormalFormSameLogo(padded, brand);
  }

  /**
   * "LOW COST REPOST" takes "lowcost" from its own exact entry.  The
   * earlier key "LOW COST", which occurs in it, names the same slug, so
   * this table cannot show the exact-first order; `LogoOf` states that
   * order in general.
   */
  lemma ExactOverrideWins()
    ensures ExactLookup(BRAND_SLUG_OVERRIDES, "LOW COST REPOST") == Some("lowcost")
    ensures LogoOf("LOW COST REPOST") == PrecioilLogo("lowcost")
    ensures BRAND_SLUG_OVERRIDES[3] == ("LOW COST", "lowcost")
  {
    assert BRAND_SLUG_OVERRIDES[4] == ("LOW COST REPOST", "lowcost");
  }

  /** A brand that merely contains an override key takes that key's slug. */
  lemma ContainedOverrideApplies()
    ensures LogoOf("E.LECLERC EXPRESS") == PrecioilLogo("e.leclerc")
  {
    assert OccursAt("E.LECLERC", "E.LECLERC EXPRESS", 0);
  }

  /** The value of the earliest key contained in `m`, or `default` when no key is. */
  function FirstContainedOr<V>(table: seq<(string, V)>, m: string, default: V): (r: V)
    ensures (forall i :: 0 <= i < |table| ==> !Contains(m, table[i].0)) ==> r == default
    ensures (exists i :: 0 <= i < |table| && Contains(m, table[i].0)) ==>
      exists i :: 0 <= i < |table| && Contains(m, table[i].0) && r == table[i].1
                  && forall j :: 0 <= j < i ==> !Contains(m, table[j].0)
  {
    FirstContained(table, m).GetOr(default)
  }

  /**
   * `getBrandColor`: the colours of the earliest key occurring in the
   * upper-cased trimmed brand, gray when none does or the brand is missing.
   */
  function GetBrandColor(marca: Option<string>): Colors
  {
    FirstContainedOr(BRAND_COLORS, Normalize(marca.GetOr("")), GRAY)
  }

  /** Nothing non-empty occurs in the empty string, so it falls back to the default. */
  lemma EmptyFallsBack<V>(table: seq<(string, V)>, default: V)
    requires forall i :: 0 <= i < |table| ==> table[i].0 != []
    ensures FirstContainedOr(table, [], default) == default
  {
    forall i | 0 <= i < |table|
      ensures !Contains([], table[i].0)
    {
    }
  }

  /** No colour key is empty. */
  lemma ColorKeysNonEmpty()
    ensures forall i :: 0 <= i < |BRAND_COLORS| ==> BRAND_COLORS[i].0 != []
  {
  }

  /** A missing brand, or a blank one, is gray: no colour key is empty. */
  lemma MissingBrandIsGray(marca: Option<string>)
    requires marca.None? || AllWhitespace(marca.value)
    ensures GetBrandColor(marca) == GRAY
  {
    assert Normalize(marca.GetOr("")) == [] by {
      NormalizeBlank(marca.GetOr(""));
    }
    EmptyBrandIsGray();
  }

  /** The colour scan over the empty name ends in gray. */
  lemma EmptyBrandIsGray()
    ensures FirstContainedOr(BRAND_COLORS, [], GRAY) == GRAY
  {
    ColorKeysNonEmpty();
    EmptyFallsBack(BRAND_COLORS, GRAY);
  }

  /** The colour, like the logo, ignores case and surrounding white space. */
  lemma ColorIgnoresCaseAndPadding(pre: string, brand: string, post: string)
    requires AllWhitespace(pre) && AllWhitespace(post)
    ensures GetBrandColor(Some(ToLower(brand))) == GetBrandColor(Some(brand))
    ensures GetBrandColor(Some(pre + brand + post)) == GetBrandColor(Some(brand))
  {
    NormalizeIgnoresCase(brand);
    NormalizeIgnoresPadding(pre, brand, post);
  }

  /** Table order decides between two keys: a brand naming both CAMPSA and REPSOL is painted as REPSOL. */
  lemma EarlierColorKeyWins()
    ensures FirstContainedOr(BRAND_COLORS, "CAMPSA REPSOL", GRAY) == Colors("#EE3524", "#fff")
  {
    assert OccursAt("REPSOL", "CAMPSA REPSOL", 7);
  }
}

=== FILE: catalog.dfy ===
/**
 * The station catalogue (fuel.service.ts): the loaded station list and the
 * selection state, the derived views `filteredStations`, `sortedStations`
 * and `averagePrice`, the mapping of raw API records into stations, and the
 * state transitions of the three loading operations.  The HTTP and
 * geocoding answers are parameters of the transitions.
 */
module Catalog {
  import opened Wrappers
  import opened Stations
  import opened Text
  import Seqs
  import PriceOrder
  import Format
  import Geolocation

  // ---------------------------------------------------------------- filtering

  /** The query as it is compared: lower-cased, then trimmed. */
  function NormalizeQuery(query: string): string {
    Trim(ToLower(query))
  }

  /** A query is ignored exactly when it is white space only. */
  lemma NormalizedQueryEmpty(query: string)
    ensures NormalizeQuery(query) == [] <==> AllWhitespace(query)
  {
    assert forall k :: 0 <= k < |query| ==> (IsWhitespace(ToLower(query)[k]) <==> IsWhitespace(query[k]));
  }

  /** An optional field matches only when present and containing the query. */
  predicate FieldContains(field: Option<string>, q: string) {
    field.Some? && Contains(ToLower(field.value), q)
  }

  /** The station's name, address, locality or province contains the normalised query. */
  predicate Matches(s: Station, q: string) {
    || Contains(ToLower(s.nombre), q)
    || Contains(ToLower(s.direccion), q)
    || FieldContains(s.localidad, q)
    || FieldContains(s.provincia, q)
  }

  /**
   * `filteredStations`: the whole list for a blank query; otherwise the
   * matching stations, each as often as in the input, in input order.
   */
  function FilterStations(stations: seq<Station>, query: string): (r: seq<Station>)
    ensures NormalizeQuery(query) == [] ==> r == stations
    ensures NormalizeQuery(query) != [] ==>
      forall x :: multiset(r)[x] == if Matches(x, NormalizeQuery(query)) then multiset(stations)[x] else 0
    ensures Seqs.IsSubsequence(r, stations)
  {
    var q := NormalizeQuery(query);
    if q == [] then
      Seqs.FilterIsSubsequence(stations, (s: Station) => true);
      assert Seqs.Filter(stations, (s: Station) => true) == stations by {
        FilterAll(stations);
      }
      stations
    else
      Seqs.FilterIsSubsequence(stations, (s: Station) => Matches(s, q));
      Seqs.Filter(stations, (s: Station) => Matches(s, q))
  }

  lemma {:induction false} FilterAll(s: seq<Station>)
    ensures Seqs.Filter(s, (x: Station) => true) == s
  {
    if s != [] {
      FilterAll(s[1..]);
      Seqs.FilterCons(s[0], s[1..], (x: Station) => true);
      assert [s[0]] + s[1..] == s;
    }
  }

  /** A station whose name and address miss the query is kept only through a present locality or province. */
  lemma AbsentFieldsNeverMatch(s: Station, q: string)
    requires s.localidad.None? && s.provincia.None?
    ensures Matches(s, q) <==> Contains(ToLower(s.nombre), q) || Contains(ToLower(s.direccion), q)
  {
  }

  // ------------------------------------------------------------------ average

  predicate HasPositivePrice(s: Station, fuel: FuelType) {
    GetPrice(s, fuel).Some? && GetPrice(s, fuel).value > 0
  }

  /** Sum of the present, strictly positive prices of the fuel type. */
  function PriceSum(stations: seq<Station>, fuel: FuelType): nat {
    Seqs.SumOf(stations, (s: Station) => if HasPositivePrice(s, fuel) then GetPrice(s, fuel).value else 0)
  }

  /** Number of stations with a present, strictly positive price of the fuel type. */
  function PriceCount(stations: seq<Station>, fuel: FuelType): nat {
    Seqs.SumOf(stations, (s: Station) => if HasPositivePrice(s, fuel) then 1 else 0)
  }

  /**
   * `averagePrice`: the mean of the present, strictly positive prices,
   * rounded half up to a whole thousandth; 0 when there are none.
   * `Math.round(S / n)` on thousandths is `(2S + n) / (2n)`.
   */
  function AveragePrice(stations: seq<Station>, fuel: FuelType): (r: nat)
    ensures PriceCount(stations, fuel) == 0 ==> r == 0
    ensures var n, sum := PriceCount(stations, fuel), PriceSum(stations, fuel);
      n > 0 ==> 2 * sum - n < 2 * n * r <= 2 * sum + n
  {
    var n := PriceCount(stations, fuel);
    if n == 0 then 0
    else
      var sum := PriceSum(stations, fuel);
      DivBounds(2 * sum + n, 2 * n);
      (2 * sum + n) / (2 * n)
  }

  lemma DivBounds(a: nat, d: nat)
    requires d > 0
    ensures d * (a / d) <= a < d * (a / d) + d
  {
  }

  /** Every positive price counts at least one thousandth towards the sum. */
  lemma {:induction false} SumAtLeastCount(stations: seq<Station>, fuel: FuelType)
    ensures PriceCount(stations, fuel) <= PriceSum(stations, fuel)
  {
    if stations != [] {
      SumAtLeastCount(stations[1..], fuel);
    }
  }

  /** The average is zero exactly when no station has a positive price of the fuel type. */
  lemma AverageZeroIffNoPrices(stations: seq<Station>, fuel: FuelType)
    ensures AveragePrice(stations, fuel) == 0 <==> forall s :: s in stations ==> !HasPositivePrice(s, fuel)
  {
    NoPricesIffCountZero(stations, fuel);
    SumAtLeastCount(stations, fuel);
  }

  lemma {:induction false} NoPricesIffCountZero(stations: seq<Station>, fuel: FuelType)
    ensures PriceCount(stations, fuel) == 0 <==> forall s :: s in stations ==> !HasPositivePrice(s, fuel)
  {
    if stations != [] {
      NoPricesIffCountZero(stations[1..], fuel);
      assert forall s :: s in stations <==> s == stations[0] || s in stations[1..];
    }
  }

  /** Bounds on the positive prices bound their sum. */
  lemma {:induction false} SumBetween(stations: seq<Station>, fuel: FuelType, lo: nat, hi: nat)
    requires forall s :: s in stations && HasPositivePrice(s, fuel) ==> lo <= GetPrice(s, fuel).value <= hi
    ensures lo * PriceCount(stations, fuel) <= PriceSum(stations, fuel) <= hi * PriceCount(stations, fuel)
  {
    if stations != [] {
      var rest := stations[1..];
      assert forall s :: s in rest ==> s in stations;
      SumBetween(rest, fuel, lo, hi);
      var n', sum' := PriceCount(rest, fuel), PriceSum(rest, fuel);
      if HasPositivePrice(stations[0], fuel) {
        var p := GetPrice(stations[0], fuel).value;
        assert PriceCount(stations, fuel) == 1 + n' && PriceSum(stations, fuel) == p + sum';
        AddTermBounds(lo, hi, p, n', sum');
      } else {
        assert PriceCount(stations, fuel) == n' && PriceSum(stations, fuel) == sum';
      }
    }
  }

  /** One more term between the bounds keeps the sum between the scaled bounds. */
  lemma AddTermBounds(lo: nat, hi: nat, p: nat, n: nat, sum: nat)
    requires lo <= p <= hi && lo * n <= sum <= hi * n
    ensures lo * (1 + n) <= p + sum <= hi * (1 + n)
  {
    assert lo * (1 + n) == lo + lo * n;
    assert hi * (1 + n) == hi + hi * n;
  }

  /**
   * The average lies between any lower and upper bound of the positive
   * prices, so between their minimum and maximum.
   */
  lemma {:induction false} AverageBetween(stations: seq<Station>, fuel: FuelType, lo: nat, hi: nat)
    requires PriceCount(stations, fuel) > 0
    requires forall s :: s in stations && HasPositivePrice(s, fuel) ==> lo <= GetPrice(s, fuel).value <= hi
    ensures lo <= AveragePrice(stations, fuel) <= hi
  {
    SumBetween(stations, fuel, lo, hi);
    RoundedMeanBetween(PriceCount(stations, fuel), PriceSum(stations, fuel), AveragePrice(stations, fuel), lo, hi);
  }

  /** A mean rounded to the nearest integer stays within integer bounds of the terms. */
  lemma RoundedMeanBetween(n: nat, sum: nat, r: nat, lo: nat, hi: nat)
    requires n > 0 && lo * n <= sum <= hi * n
    requires 2 * sum - n < 2 * n * r <= 2 * sum + n
    ensures lo <= r <= hi
  {
    if r < lo {
      MulMonotone(2 * n, r + 1, lo);
    }
    if r > hi {
      MulMonotone(2 * n, hi + 1, r);
    }
  }

  lemma MulMonotone(c: nat, a: nat, b: nat)
    requires a <= b
    ensures c * a <= c * b
  {
  }

  /** The average does not depend on the order of the stations. */
  lemma AverageOrderIndependent(a: seq<Station>, b: seq<Station>, fuel: FuelType)
    requires multiset(a) == multiset(b)
    ensures AveragePrice(a, fuel) == AveragePrice(b, fuel)
  {
    Seqs.SumOfPermutation(a, b, (s: Station) => if HasPositivePrice(s, fuel) then GetPrice(s, fuel).value else 0);
    Seqs.SumOfPermutation(a, b, (s: Station) => if HasPositivePrice(s, fuel) then 1 else 0);
  }

  // ------------------------------------------------------------ raw records

  /** A record of the `/estaciones/radio` answer, with the fields the mapping reads. */
  datatype RawStation = RawStation(
    idEstacion: int,
    nombreEstacion: Option<string>,
    direccion: Option<string>,
    latitud: real,
    longitud: real,
    provincia: Option<string>,
    localidad: Option<string>,
    marca: Option<string>,
    horario: Option<string>,
    distancia: Option<real>,
    diesel: Option<Price>,
    dieselPremium: Option<Price>,
    gasolina95: Option<Price>,
    gasolina98: Option<Price>,
    glp: Option<Price>,
    dieselMedia: Option<Price>,
    gasolina95Media: Option<Price>)

  const UNKNOWN_STATION_NAME := "Estación desconocida"

  /** One record of `mapRadioResponse`. */
  function MapRadioItem(item: RawStation): (s: Station)
    ensures s.idEstacion == item.idEstacion && s.latitud == item.latitud && s.longitud == item.longitud
    ensures item.nombreEstacion.None? ==> s.nombre == UNKNOWN_STATION_NAME
    ensures item.nombreEstacion.Some? ==> s.nombre == item.nombreEstacion.value
    ensures item.direccion.None? ==> s.direccion == ""
    ensures item.direccion.Some? ==> s.direccion == item.direccion.value
    ensures s.provincia == item.provincia && s.localidad == item.localidad
    ensures s.marca == item.marca && s.horario == item.horario
    ensures s.distancia.Some? <==> item.distancia.Some?
    ensures item.distancia.Some? ==>
      item.distancia.value - 0.0005 < s.distancia.value <= item.distancia.value + 0.0005
    ensures item.distancia.Some? ==> s.distancia == Some(Format.Round3(item.distancia.value))
    ensures GetPrice(s, Diesel) == item.diesel && GetPrice(s, DieselPremium) == item.dieselPremium
    ensures GetPrice(s, Gasolina95) == item.gasolina95 && GetPrice(s, Gasolina98) == item.gasolina98
    ensures GetPrice(s, Glp) == item.glp
    ensures s.precioDieselMedia == item.dieselMedia && s.precioGasolina95Media == item.gasolina95Media
  {
    Station(
      item.idEstacion,
      item.nombreEstacion.GetOr(UNKNOWN_STATION_NAME),
      item.direccion.GetOr(""),
      item.latitud,
      item.longitud,
      item.provincia,
      item.localidad,
      item.marca,
      item.horario,
      if item.distancia.Some? then Some(Format.Round3(item.distancia.value)) else None,
      item.diesel,
      item.dieselPremium,
      item.gasolina95,
      item.gasolina98,
      item.glp,
      item.dieselMedia,
      item.gasolina95Media)
  }

  /** `mapRadioResponse`: one station per record, in the same order. */
  function MapRadioResponse(response: seq<RawStation>): (r: seq<Station>)
    ensures |r| == |response|
    ensures forall i :: 0 <= i < |r| ==> r[i] == MapRadioItem(response[i])
  {
    seq(|response|, i requires 0 <= i < |response| => MapRadioItem(response[i]))
  }

  // ------------------------------------------------------------------- state

  /** What the station-fetch collaborator answered: the records, or a failure. */
  datatype Fetch<T> = Fetched(value: T) | FetchFailed

  datatype CatalogState = CatalogState(
    stations: seq<Station>,
    isLoading: bool,
    error: Option<string>,
    selectedFuelType: FuelType,
    searchQuery: string,
    searchCenter: Option<Geolocation.GeoPoint>,
    lastRadius: real)

  /** The service as constructed; the default radius comes from the environment file. */
  function Initial(defaultRadius: real): (st: CatalogState)
    ensures st.stations == [] && !st.isLoading && st.error == None
    ensures st.selectedFuelType == Gasolina95 && st.searchQuery == "" && st.searchCenter == None
    ensures st.lastRadius == defaultRadius
  {
    CatalogState([], false, None, Gasolina95, "", None, defaultRadius)
  }

  function FilteredStations(st: CatalogState): seq<Station> {
    FilterStations(st.stations, st.searchQuery)
  }

  function SortedStations(st: CatalogState): seq<Station> {
    PriceOrder.SortByPrice(FilteredStations(st), st.selectedFuelType)
  }

  function Average(st: CatalogState): nat {
    AveragePrice(SortedStations(st), st.selectedFuelType)
  }

  /**
   * The sorted view holds the filtered stations, reordered by price, and
   * the average over it equals the average over the unsorted filter result.
   */
  lemma {:induction false} SortedViewIsFilteredView(st: CatalogState)
    ensures multiset(SortedStations(st)) == multiset(FilteredStations(st))
    ensures PriceOrder.SortedBy(SortedStations(st), st.selectedFuelType)
    ensures Average(st) == AveragePrice(FilteredStations(st), st.selectedFuelType)
  {
    AverageOrderIndependent(SortedStations(st), FilteredStations(st), st.selectedFuelType);
  }

  const RADIUS_ERROR_MESSAGE := "No se pudieron cargar las estaciones. Inténtalo de nuevo."
  const MUNICIPIO_ERROR_MESSAGE := "Error al cargar estaciones del municipio."

  /** `loadStationsByRadius` before the answer arrives. */
  function BeginLoadByRadius(st: CatalogState, lat: real, lon: real, radio: real): (r: CatalogState)
    ensures r.isLoading && r.error == None
    ensures r.searchCenter == Some(Geolocation.GeoPoint(lat, lon)) && r.lastRadius == radio
    ensures r.stations == st.stations && r.searchQuery == st.searchQuery
    ensures r.selectedFuelType == st.selectedFuelType
  {
    st.(isLoading := true, error := None, searchCenter := Some(Geolocation.GeoPoint(lat, lon)), lastRadius := radio)
  }

  /**
   * The subscription shared by both loads: on success the new list, on
   * failure the load's message and an empty list; loading ends either way.
   */
  function FinishLoad(st: CatalogState, result: Fetch<seq<Station>>, message: string): (r: CatalogState)
    ensures !r.isLoading
    ensures result.Fetched? ==> r.stations == result.value && r.error == st.error
    ensures result.FetchFailed? ==> r.stations == [] && r.error == Some(message)
    ensures r.searchCenter == st.searchCenter && r.lastRadius == st.lastRadius
    ensures r.searchQuery == st.searchQuery && r.selectedFuelType == st.selectedFuelType
  {
    match result
    case Fetched(list) => st.(stations := list, isLoading := false)
    case FetchFailed => st.(error := Some(message), stations := [], isLoading := false)
  }

  /** `loadStationsByRadius`, with the HTTP answer given. */
  function LoadStationsByRadius(st: CatalogState, lat: real, lon: real, radio: real,
                                response: Fetch<seq<RawStation>>): (r: CatalogState)
    ensures !r.isLoading
    ensures r.searchCenter == Some(Geolocation.GeoPoint(lat, lon)) && r.lastRadius == radio
    ensures response.Fetched? ==> r.stations == MapRadioResponse(response.value) && r.error == None
    ensures response.FetchFailed? ==> r.stations == [] && r.error == Some(RADIUS_ERROR_MESSAGE)
    ensures r.searchQuery == st.searchQuery && r.selectedFuelType == st.selectedFuelType
  {
    var pending := BeginLoadByRadius(st, lat, lon, radio);
    var mapped := match response
      case Fetched(records) => Fetched(MapRadioResponse(records))
      case FetchFailed => FetchFailed;
    FinishLoad(pending, mapped, RADIUS_ERROR_MESSAGE)
  }

  /** `loadStationsByMunicipio` before the answer arrives. */
  function BeginLoadByMunicipio(st: CatalogState): (r: CatalogState)
    ensures r.isLoading && r.error == None
    ensures r.stations == st.stations && r.searchCenter == st.searchCenter && r.lastRadius == st.lastRadius
    ensures r.searchQuery == st.searchQuery && r.selectedFuelType == st.selectedFuelType
  {
    st.(isLoading := true, error := None)
  }

  /**
   * `loadStationsByMunicipio`: the stations' distances are recomputed from
   * the user's location when the answer arrives (absent without one); the
   * search centre and the radius are never touched.
   */
  function LoadStationsByMunicipio(st: CatalogState, geo: Geolocation.GeoState, distance: Geolocation.DistanceFn,
                                   response: Fetch<seq<Station>>): (r: CatalogState)
    ensures !r.isLoading
    ensures r.searchCenter == st.searchCenter && r.lastRadius == st.lastRadius
    ensures response.Fetched? ==> r.error == None && |r.stations| == |response.value|
    ensures response.Fetched? ==> forall i :: 0 <= i < |r.stations| ==>
      r.stations[i] == response.value[i].(distancia :=
        Geolocation.DistanceFromUser(geo, response.value[i].latitud, response.value[i].longitud, distance))
    ensures response.Fetched? && !Geolocation.HasLocation(geo) ==>
      forall i :: 0 <= i < |r.stations| ==> r.stations[i].distancia.None?
    ensures response.FetchFailed? ==> r.stations == [] && r.error == Some(MUNICIPIO_ERROR_MESSAGE)
    ensures r.searchQuery == st.searchQuery && r.selectedFuelType == st.selectedFuelType
  {
    var pending := BeginLoadByMunicipio(st);
    var withDistance := match response
      case Fetched(list) => Fetched(seq(|list|, i requires 0 <= i < |list| =>
          list[i].(distancia := Geolocation.DistanceFromUser(geo, list[i].latitud, list[i].longitud, distance))))
      case FetchFailed => FetchFailed;
    FinishLoad(pending, withDistance, MUNICIPIO_ERROR_MESSAGE)
  }

  /**
   * `searchByLocation`, with the geocoder's answer and the following station
   * load given.  A blank query is ignored; a failed geocode counts as no
   * result; with a result the query is cleared and stations are loaded
   * around the first result with the last radius.
   */
  function SearchByLocation(st: CatalogState, query: string, geocoded: Fetch<seq<Geolocation.GeoPoint>>,
                            response: Fetch<seq<RawStation>>): (r: CatalogState)
    ensures AllWhitespace(query) ==> r == st
    ensures (geocoded.FetchFailed? || geocoded.value == []) ==> r == st
    ensures !AllWhitespace(query) && geocoded.Fetched? && geocoded.value != [] ==>
      r == LoadStationsByRadius(st.(searchQuery := ""), geocoded.value[0].latitude, geocoded.value[0].longitude,
                                st.lastRadius, response)
      && r.searchQuery == "" && r.lastRadius == st.lastRadius && r.searchCenter == Some(geocoded.value[0])
  {
    if Trim(query) == [] then st
    else
      var results := if geocoded.Fetched? then geocoded.value else [];
      if |results| > 0 then
        LoadStationsByRadius(st.(searchQuery := ""), results[0].latitude, results[0].longitude, st.lastRadius, response)
      else st
  }
}

=== FILE: format.dfy ===
/**
 * The number formatting the views share: `Math.round`, the three-decimal
 * rounding of distances, and the metres / kilometres distance label
 * (map-view.ts and station-card.ts format distances the same way).
 */
module Format {

  /** `Math.round` on an exact value: the nearest integer, a half rounded up. */
  function RoundHalfUp(x: real): (k: int)
    ensures x - 0.5 < k as real <= x + 0.5
  {
    (x + 0.5).Floor
  }

  /** Only one integer lies that close to `x`, so rounding has a single answer. */
  lemma RoundHalfUpUnique(x: real, k: int)
    requires x - 0.5 < k as real <= x + 0.5
    ensures k == RoundHalfUp(x)
  {
  }

  /** `Math.round(d * 1000) / 1000`: the distance to the nearest metre, in kilometres. */
  function Round3(d: real): (r: real)
    ensures d - 0.0005 < r <= d + 0.0005
    ensures (r * 1000.0).Floor as real == r * 1000.0
  {
    RoundHalfUp(d * 1000.0) as real / 1000.0
  }

  /** How a distance in kilometres is shown: whole metres below 1 km, else km with one decimal. */
  datatype DistanceLabel =
    | Metres(metres: int)
    | Kilometres(tenths: int)   // `toFixed(1)`: the label shows tenths / 10

  function FormatDistance(d: real): (r: DistanceLabel)
    ensures r.Metres? <==> d < 1.0
    ensures r.Metres? ==> d * 1000.0 - 0.5 < r.metres as real <= d * 1000.0 + 0.5 && r.metres <= 1000
    ensures r.Kilometres? ==> d * 10.0 - 0.5 < r.tenths as real <= d * 10.0 + 0.5 && r.tenths >= 10
  {
    if d < 1.0 then Metres(RoundHalfUp(d * 1000.0))
    else Kilometres(RoundHalfUp(d * 10.0))
  }

  /** Just below one kilometre the label reads "1000 m", not "1.0 km". */
  lemma MetreLabelReachesOneThousand()
    ensures FormatDistance(0.9996) == Metres(1000)
    ensures FormatDistance(1.0) == Kilometres(10)
  {
  }
}

=== FILE: geolocation.dfy ===
/**
 * The geolocation service (geolocation.service.ts): the request state
 * machine around the browser's position sensor, and the distance from the
 * user's last known position.  The sensor's answer is a parameter; the
 * haversine formula is passed in as an uninterpreted function.
 */
module Geolocation {
  import opened Wrappers

  /** A latitude / longitude pair in degrees (`UserLocation`, the search centre). */
  datatype GeoPoint = GeoPoint(latitude: real, longitude: real)

  /** `calculateDistance(lat1, lon1, lat2, lon2)`, in kilometres; not interpreted here. */
  type DistanceFn = (real, real, real, real) -> real

  datatype GeoState = GeoState(
    userLocation: Option<GeoPoint>,
    locationError: Option<string>,
    isLocating: bool)

  const Initial := GeoState(None, None, false)

  /** What `getCurrentPosition` reported: a position, or an error with its numeric code. */
  datatype SensorOutcome = Position(coords: GeoPoint) | SensorError(code: int)

  const UNSUPPORTED_MESSAGE := "La geolocalización no está soportada en este navegador."
  const PERMISSION_DENIED_MESSAGE := "Permiso de ubicación denegado. Puedes buscarlo manualmente."
  const POSITION_UNAVAILABLE_MESSAGE := "No se pudo determinar tu ubicación."
  const TIMEOUT_MESSAGE := "Tiempo de espera agotado al obtener la ubicación."
  const UNKNOWN_ERROR_MESSAGE := "Error desconocido de geolocalización."

  /** The message shown for a sensor error code: codes 1, 2, 3 have their own, every other code the generic one. */
  function ErrorMessage(code: int): (m: string)
    ensures code == 1 <==> m == PERMISSION_DENIED_MESSAGE
    ensures code == 2 <==> m == POSITION_UNAVAILABLE_MESSAGE
    ensures code == 3 <==> m == TIMEOUT_MESSAGE
    ensures !(1 <= code <= 3) <==> m == UNKNOWN_ERROR_MESSAGE
  {
    if code == 1 then PERMISSION_DENIED_MESSAGE
    else if code == 2 then POSITION_UNAVAILABLE_MESSAGE
    else if code == 3 then TIMEOUT_MESSAGE
    else UNKNOWN_ERROR_MESSAGE
  }

  /** The state while the sensor is being asked: locating, no error, location kept. */
  function BeginRequest(st: GeoState): (r: GeoState)
    ensures r.isLocating && r.locationError == None
    ensures r.userLocation == st.userLocation
  {
    st.(isLocating := true, locationError := None)
  }

  /**
   * `requestLocation`: the state after the request settles and the value the
   * promise resolves to.  Without a sensor only the error is set.
   */
  function RequestLocation(st: GeoState, supported: bool, outcome: SensorOutcome): (r: (GeoState, Option<GeoPoint>))
    ensures !supported ==> r.0 == st.(locationError := Some(UNSUPPORTED_MESSAGE)) && r.1 == None
    ensures supported ==> !r.0.isLocating
    ensures supported && outcome.Position? ==>
      r.0.userLocation == Some(outcome.coords) && r.0.locationError == None && r.1 == Some(outcome.coords)
    ensures supported && outcome.SensorError? ==>
      r.0.userLocation == st.userLocation && r.0.locationError == Some(ErrorMessage(outcome.code)) && r.1 == None
    ensures r.1.Some? ==> r.0.userLocation == r.1
  {
    if !supported then (st.(locationError := Some(UNSUPPORTED_MESSAGE)), None)
    else
      var pending := BeginRequest(st);
      match outcome
      case Position(p) => (pending.(userLocation := Some(p), isLocating := false), Some(p))
      case SensorError(code) => (pending.(locationError := Some(ErrorMessage(code)), isLocating := false), None)
  }

  /** `hasLocation`. */
  predicate HasLocation(st: GeoState) {
    st.userLocation.Some?
  }

  /** `distanceFromUser`: null without a location, else the distance from it to the point. */
  function DistanceFromUser(st: GeoState, lat: real, lon: real, distance: DistanceFn): (r: Option<real>)
    ensures r.None? <==> !HasLocation(st)
    ensures HasLocation(st) ==>
      r == Some(distance(st.userLocation.value.latitude, st.userLocation.value.longitude, lat, lon))
  {
    match st.userLocation
    case None => None
    case Some(loc) => Some(distance(loc.latitude, loc.longitude, lat, lon))
  }

  /** A failed request never forgets a location obtained earlier. */
  lemma {:induction false} FailureKeepsLocation(st: GeoState, supported: bool, code: int)
    ensures RequestLocation(st, supported, SensorError(code)).0.userLocation == st.userLocation
    ensures HasLocation(st) ==> HasLocation(RequestLocation(st, supported, SensorError(code)).0)
  {
  }

  /** Once a request settles, `hasLocation` holds exactly when one has ever succeeded. */
  lemma {:induction false} SettledRequestLocation(st: GeoState, outcome: SensorOutcome)
    ensures HasLocation(RequestLocation(st, true, outcome).0) <==> outcome.Position? || HasLocation(st)
  {
  }
}

=== FILE: long_press.dfy ===
/**
 * How the map turns gestures into a new reference location
 * (map-view.ts): a double click or a context menu reports its point at
 * once; a single-finger touch arms a 700 ms timer that reports the touch
 * point unless the finger lifts or moves first.  The component keeps only
 * the handle of the latest timer, so a release cancels that one timer.
 */
module LongPress {
  import opened Wrappers
  import Geolocation

  type GeoPoint = Geolocation.GeoPoint

  const LONG_PRESS_MS := 700

  /** A touch position in container pixels. */
  datatype ScreenPoint = ScreenPoint(x: real, y: real)

  /** `containerPointToLatLng`, which belongs to the map library. */
  type Projection = ScreenPoint -> GeoPoint

  datatype Event =
    | TouchStart(touches: seq<ScreenPoint>)
    | TouchEnd
    | TouchMove
    | TimerFires(timer: nat)
    | DoubleClick(at: GeoPoint)
    | ContextMenu(at: GeoPoint)
    | Destroyed

  /**
   * The pending timers, each with the touch that armed it; the handle
   * kept in `longPressTimer`; and the next handle the clock will give out.
   */
  datatype Timers = Timers(pending: map<nat, ScreenPoint>, latest: Option<nat>, nextHandle: nat)

  const Idle := Timers(map[], None, 0)

  /** Handles are handed out in increasing order, so every pending one is below the next. */
  predicate Valid(t: Timers) {
    (forall h :: h in t.pending ==> h < t.nextHandle)
    && (t.latest.Some? ==> t.latest.value < t.nextHandle)
  }

  /** `clearTimeout(this.longPressTimer)`: only the latest handle is cancelled. */
  function ClearLatest(t: Timers): (r: Timers)
    ensures r.latest == t.latest && r.nextHandle == t.nextHandle
    ensures t.latest.Some? ==> t.latest.value !in r.pending
    ensures forall h :: h in r.pending <==> h in t.pending && t.latest != Some(h)
    ensures forall h :: h in r.pending ==> r.pending[h] == t.pending[h]
  {
    match t.latest
    case None => t
    case Some(h) => t.(pending := t.pending - {h})
  }

  /**
   * One event: the timers afterwards and the location reported, if any.
   * A touch with other than one finger does nothing, not even cancel.
   */
  function Step(t: Timers, ev: Event, project: Projection): (r: (Timers, Option<GeoPoint>))
    ensures Valid(t) ==> Valid(r.0)
    ensures r.1.Some? <==> (ev.DoubleClick? || ev.ContextMenu? || (ev.TimerFires? && ev.timer in t.pending))
    ensures (ev.DoubleClick? || ev.ContextMenu?) ==> r == (t, Some(ev.at))
    ensures ev.TimerFires? && ev.timer in t.pending ==> r.1 == Some(project(t.pending[ev.timer]))
    ensures ev.TimerFires? ==> r.0 == t.(pending := t.pending - {ev.timer})
    ensures ev.TimerFires? && ev.timer !in t.pending ==> r == (t, None)
    ensures ev.TouchStart? && |ev.touches| == 1 ==>
      r.0.latest == Some(t.nextHandle) && r.0.pending == t.pending[t.nextHandle := ev.touches[0]]
    ensures ev.TouchStart? && |ev.touches| != 1 ==> r.0 == t
    ensures (ev.TouchEnd? || ev.TouchMove? || ev.Destroyed?) ==> r.0 == ClearLatest(t)
  {
    match ev
    case TouchStart(touches) =>
      if |touches| != 1 then (t, None)
      else (Timers(t.pending[t.nextHandle := touches[0]], Some(t.nextHandle), t.nextHandle + 1), None)
    case TouchEnd => (ClearLatest(t), None)
    case TouchMove => (ClearLatest(t), None)
    case Destroyed => (ClearLatest(t), None)
    case TimerFires(h) =>
      if h in t.pending then (t.(pending := t.pending - {h}), Some(project(t.pending[h])))
      else (t, None)
    case DoubleClick(p) => (t, Some(p))
    case ContextMenu(p) => (t, Some(p))
  }

  /** Runs a sequence of events, collecting the reported locations. */
  function Run(t: Timers, evs: seq<Event>, project: Projection): (r: (Timers, seq<GeoPoint>))
    ensures Valid(t) ==> Valid(r.0)
    decreases |evs|
  {
    if evs == [] then (t, [])
    else
      var (t1, out) := Step(t, evs[0], project);
      var (t2, rest) := Run(t1, evs[1..], project);
      (t2, OptionToSeq(out) + rest)
  }

  function OptionToSeq<T>(o: Option<T>): seq<T> {
    if o.Some? then [o.value] else []
  }

  /** How many timers the events arm, and how many reports come from clicks. */
  function Arms(evs: seq<Event>): nat {
    if evs == [] then 0
    else (if evs[0].TouchStart? && |evs[0].touches| == 1 then 1 else 0) + Arms(evs[1..])
  }

  function Clicks(evs: seq<Event>): nat {
    if evs == [] then 0
    else (if evs[0].DoubleClick? || evs[0].ContextMenu? then 1 else 0) + Clicks(evs[1..])
  }

  lemma MapRemoveSize<K, V>(m: map<K, V>, k: K)
    requires k in m
    ensures |(m - {k}).Keys| + 1 == |m.Keys|
  {
    assert (m - {k}).Keys == m.Keys - {k};
  }

  lemma MapAddSize<K, V>(m: map<K, V>, k: K, v: V)
    ensures |m[k := v].Keys| <= |m.Keys| + 1
  {
    assert m[k := v].Keys == m.Keys + {k};
  }

  /**
   * Every timer reports at most once: the locations reported number at
   * most the clicks, plus the timers armed, plus those already pending.
   */
  lemma {:induction false} ReportsAreBounded(t: Timers, evs: seq<Event>, project: Projection)
    ensures |Run(t, evs, project).1| + |Run(t, evs, project).0.pending.Keys|
            <= Clicks(evs) + Arms(evs) + |t.pending.Keys|
    decreases |evs|
  {
    if evs != [] {
      var (t1, out) := Step(t, evs[0], project);
      ReportsAreBounded(t1, evs[1..], project);
      StepIsBounded(t, evs[0], project);
    }
  }

  /** One event reports at most once per click or pending timer, and arms at most one timer. */
  lemma StepIsBounded(t: Timers, ev: Event, project: Projection)
    ensures |OptionToSeq(Step(t, ev, project).1)| + |Step(t, ev, project).0.pending.Keys|
            <= (if ev.DoubleClick? || ev.ContextMenu? then 1 else 0)
               + (if ev.TouchStart? && |ev.touches| == 1 then 1 else 0) + |t.pending.Keys|
  {
    match ev
    case TouchStart(touches) =>
      if |touches| == 1 {
        MapAddSize(t.pending, t.nextHandle, touches[0]);
      }
    case TimerFires(h) =>
      if h in t.pending {
        MapRemoveSize(t.pending, h);
      }
    case DoubleClick(_) =>
    case ContextMenu(_) =>
    case _ =>
      if t.latest.Some? && t.latest.value in t.pending {
        MapRemoveSize(t.pending, t.latest.value);
      } else {
        assert Step(t, ev, project).0 == t;
      }
  }

  /** A press released before the timer fires reports nothing. */
  lemma ReleasedPressReportsNothing(t: Timers, p: ScreenPoint, release: Event, project: Projection)
    requires release.TouchEnd? || release.TouchMove?
    ensures var t1 := Step(t, TouchStart([p]), project).0;
      var t2 := Step(t1, release, project).0;
      Step(t2, TimerFires(t.nextHandle), project).1 == None
  {
  }

  /** A press held until its timer fires reports the projected touch point. */
  lemma HeldPressReports(t: Timers, p: ScreenPoint, project: Projection)
    ensures var t1 := Step(t, TouchStart([p]), project).0;
      Step(t1, TimerFires(t.nextHandle), project).1 == Some(project(p))
  {
  }

  /**
   * A second finger does not cancel a one-finger press: the touch start
   * with two touches leaves the armed timer, and it still reports.
   */
  lemma SecondFingerKeepsTimer(p: ScreenPoint, q: ScreenPoint, project: Projection)
    ensures var t1 := Step(Idle, TouchStart([p]), project).0;
      var t2 := Step(t1, TouchStart([p, q]), project).0;
      Step(t2, TimerFires(0), project).1 == Some(project(p))
  {
  }

  /**
   * Two one-finger touch starts with no release between them (the source
   * does not listen for `touchcancel`) leave the first timer orphaned: the
   * release cancels only the second, and the first still reports.
   */
  lemma OverwrittenTimerStillReports(p: ScreenPoint, q: ScreenPoint, project: Projection)
    ensures var t1 := Step(Idle, TouchStart([p]), project).0;
      var t2 := Step(t1, TouchStart([q]), project).0;
      var t3 := Step(t2, TouchEnd, project).0;
      && Step(t3, TimerFires(1), project).1 == None
      && Step(t3, TimerFires(0), project).1 == Some(project(p))
  {
  }
}

=== FILE: map_view.dfy ===
/**
 * The map component (map-view.ts) without Leaflet: what each marker,
 * icon and popup shows, which camera move `fitView` and the highlight
 * ask for, when the search-centre pin appears, which tile set is drawn,
 * and the four effects that keep those layers in step with their inputs.
 */
module MapView {
  import opened Wrappers
  import opened Stations
  import Format
  import BrandLogos
  import Geolocation
  import PriceOrder
  import Catalog
  import Theme
  import StationCard
  import Seqs

  type GeoPoint = Geolocation.GeoPoint

  // ------------------------------------------------------------------ labels

  /** `FUEL_LABELS`: the popup's heading for the selected fuel. */
  function FuelLabel(fuel: FuelType): (name: string)
    ensures |name| >= 3
  {
    match fuel
    case Gasolina95 => "Gasolina 95"
    case Gasolina98 => "Gasolina 98"
    case Diesel => "Diésel"
    case DieselPremium => "Diésel Premium"
    case Glp => "GLP"
  }

  /** Every fuel type has its own heading. */
  lemma FuelLabelsDistinct(a: FuelType, b: FuelType)
    ensures FuelLabel(a) == FuelLabel(b) <==> a == b
  {
    if a != b {
      // the last characters already differ: '5', '8', 'l', 'm', 'P'
      assert FuelLabel(a)[|FuelLabel(a)| - 1] != FuelLabel(b)[|FuelLabel(b)| - 1];
    }
  }

  /** A string field shown only when truthy: present and non-empty. */
  predicate Truthy(field: Option<string>) {
    field.Some? && field.value != []
  }

  /** A price shown only when truthy: present and non-zero. */
  predicate Shown(price: Option<Price>) {
    price.Some? && price.value > 0
  }

  // -------------------------------------------------------------------- icon

  datatype Border = OrangeBorder | GreenBorder | NeutralBorder

  datatype BrandIcon = BrandIcon(
    logo: BrandLogos.Logo,
    size: nat,
    border: Border,
    rankBadge: Option<nat>,
    iconSize: nat,
    iconAnchor: nat,
    popupAnchor: int)

  /**
   * `createBrandIcon`: a top station gets the large orange icon with its
   * rank; otherwise a cheap one gets a green border and the rest a neutral
   * one.  The icon box is 12 pixels wider than the logo and anchored at
   * its centre; the popup opens 4 pixels above the logo.
   */
  function CreateBrandIcon(station: Station, rank: nat, isCheap: bool, isTop: bool): (icon: BrandIcon)
    ensures icon.logo == BrandLogos.GetBrandLogo(station.marca)
    ensures icon.size == if isTop then 38 else 30
    ensures icon.border == OrangeBorder <==> isTop
    ensures icon.border == GreenBorder <==> !isTop && isCheap
    ensures icon.rankBadge.Some? <==> isTop
    ensures icon.rankBadge.Some? ==> icon.rankBadge.value == rank
    ensures icon.iconSize == icon.size + 12 && 2 * icon.iconAnchor == icon.iconSize
    ensures icon.popupAnchor < 0 && 2 * (-icon.popupAnchor - 4) == icon.size
  {
    var size := if isTop then 38 else 30;
    var border := if isTop then OrangeBorder else if isCheap then GreenBorder else NeutralBorder;
    BrandIcon(BrandLogos.GetBrandLogo(station.marca), size, border,
              if isTop then Some(rank) else None,
              size + 12, (size + 12) / 2, -(size / 2 + 4))
  }

  // ------------------------------------------------------------------- popup

  /** The popup's fuel rows, in this order. */
  const POPUP_FUELS: seq<FuelType> := [Gasolina95, Gasolina98, Diesel, DieselPremium, Glp]

  function PopupRank(fuel: FuelType): (i: nat)
    ensures i < |POPUP_FUELS| && POPUP_FUELS[i] == fuel
  {
    match fuel
    case Gasolina95 => 0
    case Gasolina98 => 1
    case Diesel => 2
    case DieselPremium => 3
    case Glp => 4
  }

  /** The short name a fuel row carries in the popup table. */
  function ShortLabel(fuel: FuelType): string {
    match fuel
    case Gasolina95 => "G95"
    case Gasolina98 => "G98"
    case Diesel => "Diésel"
    case DieselPremium => "D.Prem"
    case Glp => "GLP"
  }

  /** A row of the popup's price table: the fuel, its short name and its price. */
  datatype PriceRow = PriceRow(fuel: FuelType, shortName: string, price: Price)

  /** The rows for the fuels of `fuels` whose price is truthy, in the order of `fuels`. */
  function RowsOf(s: Station, fuels: seq<FuelType>): seq<PriceRow> {
    if fuels == [] then []
    else
      var f := fuels[0];
      (if Shown(GetPrice(s, f)) then [PriceRow(f, ShortLabel(f), GetPrice(s, f).value)] else []) + RowsOf(s, fuels[1..])
  }

  /** Every row names a listed fuel with a truthy price, and carries that price. */
  lemma {:induction false} RowsOfSound(s: Station, fuels: seq<FuelType>)
    ensures forall i :: 0 <= i < |RowsOf(s, fuels)| ==>
      && RowsOf(s, fuels)[i].fuel in fuels
      && Shown(GetPrice(s, RowsOf(s, fuels)[i].fuel))
      && RowsOf(s, fuels)[i].price == GetPrice(s, RowsOf(s, fuels)[i].fuel).value
      && RowsOf(s, fuels)[i].shortName == ShortLabel(RowsOf(s, fuels)[i].fuel)
  {
    if fuels != [] {
      RowsOfSound(s, fuels[1..]);
    }
  }

  /** Every listed fuel with a truthy price has a row. */
  lemma {:induction false} RowsOfComplete(s: Station, fuels: seq<FuelType>, fuel: FuelType)
    requires fuel in fuels && Shown(GetPrice(s, fuel))
    ensures exists i :: 0 <= i < |RowsOf(s, fuels)| && RowsOf(s, fuels)[i].fuel == fuel
  {
    var rows := RowsOf(s, fuels);
    if fuels[0] == fuel {
      assert rows[0].fuel == fuel;
    } else {
      RowsOfComplete(s, fuels[1..], fuel);
      var rest := RowsOf(s, fuels[1..]);
      var i :| 0 <= i < |rest| && rest[i].fuel == fuel;
      var off := |rows| - |rest|;
      assert rows[off + i] == rest[i];
    }
  }

  /** Fuels listed in increasing popup order give rows in increasing popup order. */
  lemma {:induction false} RowsOfOrdered(s: Station, fuels: seq<FuelType>)
    requires forall i, j :: 0 <= i < j < |fuels| ==> PopupRank(fuels[i]) < PopupRank(fuels[j])
    ensures forall i, j :: 0 <= i < j < |RowsOf(s, fuels)| ==>
      PopupRank(RowsOf(s, fuels)[i].fuel) < PopupRank(RowsOf(s, fuels)[j].fuel)
  {
    if fuels != [] {
      var rest := RowsOf(s, fuels[1..]);
      RowsOfOrdered(s, fuels[1..]);
      RowsOfSound(s, fuels[1..]);
      assert forall g :: g in fuels[1..] ==> PopupRank(fuels[0]) < PopupRank(g);
    }
  }

  /**
   * The "all prices" rows: one per fuel whose price is truthy, carrying
   * its short name and that price, in popup order.
   */
  function PriceRows(s: Station): (rows: seq<PriceRow>)
    ensures forall i :: 0 <= i < |rows| ==>
      Shown(GetPrice(s, rows[i].fuel)) && rows[i].price == GetPrice(s, rows[i].fuel).value
      && rows[i].shortName == ShortLabel(rows[i].fuel)
    ensures forall fuel :: Shown(GetPrice(s, fuel)) <==> exists i :: 0 <= i < |rows| && rows[i].fuel == fuel
    ensures forall i, j :: 0 <= i < j < |rows| ==> PopupRank(rows[i].fuel) < PopupRank(rows[j].fuel)
  {
    assert forall fuel :: fuel in POPUP_FUELS by {
      forall fuel ensures fuel in POPUP_FUELS {
        assert POPUP_FUELS[PopupRank(fuel)] == fuel;
      }
    }
    RowsOfSound(s, POPUP_FUELS);
    RowsOfOrdered(s, POPUP_FUELS);
    assert forall fuel :: Shown(GetPrice(s, fuel)) ==> exists i :: 0 <= i < |RowsOf(s, POPUP_FUELS)| && RowsOf(s, POPUP_FUELS)[i].fuel == fuel by {
      forall fuel | Shown(GetPrice(s, fuel))
        ensures exists i :: 0 <= i < |RowsOf(s, POPUP_FUELS)| && RowsOf(s, POPUP_FUELS)[i].fuel == fuel
      {
        RowsOfComplete(s, POPUP_FUELS, fuel);
      }
    }
    RowsOf(s, POPUP_FUELS)
  }

  /** How the selected price reads: the price, or "Sin datos" when it is missing or zero. */
  datatype PriceText = PriceText(thousandths: Price) | NoData

  /** The line under the name: locality and province, with a separator only when both are there. */
  function PlaceLine(localidad: Option<string>, provincia: Option<string>): (line: string)
    ensures !Truthy(localidad) && !Truthy(provincia) <==> line == []
    ensures Truthy(localidad) && Truthy(provincia) ==> line == localidad.value + " · " + provincia.value
    ensures Truthy(localidad) != Truthy(provincia) ==>
      line == (if Truthy(localidad) then localidad.value else provincia.value)
  {
    (if Truthy(localidad) then localidad.value else "")
      + (if Truthy(localidad) && Truthy(provincia) then " · " else "")
      + (if Truthy(provincia) then provincia.value else "")
  }

  datatype Popup = Popup(
    rankBadge: Option<nat>,
    nombre: string,
    place: string,
    brandBadge: Option<(string, BrandLogos.Colors)>,
    fuelLabel: string,
    price: PriceText,
    priceHighlighted: bool,
    distance: Option<Format.DistanceLabel>,
    priceTable: seq<PriceRow>,
    horario: Option<string>,
    directions: GeoPoint)   // the destination of the Google, Waze and Apple links

  /** The popup of the station in position `rank` for the selected fuel. */
  function BuildPopup(s: Station, fuel: FuelType, rank: nat, isCheap: bool, isTop: bool): (p: Popup)
    ensures p.rankBadge.Some? <==> isTop
    ensures p.rankBadge.Some? ==> p.rankBadge.value == rank
    ensures p.nombre == s.nombre && p.place == PlaceLine(s.localidad, s.provincia)
    ensures p.fuelLabel == FuelLabel(fuel)
    ensures p.price.NoData? <==> !Shown(GetPrice(s, fuel))
    ensures p.price.PriceText? ==> p.price.thousandths == GetPrice(s, fuel).value
    ensures p.priceHighlighted == isCheap
    ensures p.brandBadge.Some? <==> Truthy(s.marca)
    ensures p.brandBadge.Some? ==> p.brandBadge.value == (s.marca.value, BrandLogos.GetBrandColor(s.marca))
    ensures p.distance == StationCard.FormattedDistance(s)
    ensures p.priceTable == [] <==> |PriceRows(s)| <= 1
    ensures p.priceTable != [] ==> p.priceTable == PriceRows(s)
    ensures p.horario.Some? <==> Truthy(s.horario)
    ensures p.horario.Some? ==> p.horario == s.horario
    ensures p.directions == Geolocation.GeoPoint(s.latitud, s.longitud)
  {
    var rows := PriceRows(s);
    Popup(
      if isTop then Some(rank) else None,
      s.nombre,
      PlaceLine(s.localidad, s.provincia),
      if Truthy(s.marca) then Some((s.marca.value, BrandLogos.GetBrandColor(s.marca))) else None,
      FuelLabel(fuel),
      if Shown(GetPrice(s, fuel)) then PriceText(GetPrice(s, fuel).value) else NoData,
      isCheap,
      StationCard.FormattedDistance(s),
      if |rows| > 1 then rows else [],
      if Truthy(s.horario) then s.horario else None,
      Geolocation.GeoPoint(s.latitud, s.longitud))
  }

  /** A station with a single truthy price shows no table; with two or more it shows them all. */
  lemma PriceTableNeedsTwoPrices(s: Station, fuel: FuelType, a: FuelType, b: FuelType)
    requires a != b && Shown(GetPrice(s, a)) && Shown(GetPrice(s, b))
    ensures |BuildPopup(s, fuel, 1, false, false).priceTable| >= 2
  {
    var rows := PriceRows(s);
    var i :| 0 <= i < |rows| && rows[i].fuel == a;
    var j :| 0 <= j < |rows| && rows[j].fuel == b;
    assert i != j;
  }

  // ----------------------------------------------------------------- markers

  datatype Marker = Marker(
    station: Station,
    position: GeoPoint,
    rank: nat,
    isTop: bool,
    isCheap: bool,
    icon: BrandIcon,
    popup: Popup)

  /** The marker of the station at index `i` of the list. */
  function MarkerAt(stations: seq<Station>, i: nat, fuel: FuelType, average: nat): (m: Marker)
    requires i < |stations|
  {
    var s := stations[i];
    var price := GetPrice(s, fuel);
    var isCheap := IsCheap(price, average);
    var isTop := i < 3 && price.Some?;
    Marker(s, Geolocation.GeoPoint(s.latitud, s.longitud), i + 1, isTop, isCheap,
           CreateBrandIcon(s, i + 1, isCheap, isTop), BuildPopup(s, fuel, i + 1, isCheap, isTop))
  }

  /**
   * `renderMarkers`: one marker per station, in list order, ranked from 1.
   * The first three stations that have a price are "top"; a station is
   * "cheap" when its price is below a positive average.
   */
  function RenderMarkers(stations: seq<Station>, fuel: FuelType, average: nat): (ms: seq<Marker>)
    ensures |ms| == |stations|
    ensures forall i :: 0 <= i < |ms| ==> ms[i].station == stations[i] && ms[i].rank == i + 1
    ensures forall i :: 0 <= i < |ms| ==> (ms[i].isTop <==> i < 3 && GetPrice(stations[i], fuel).Some?)
    ensures forall i :: 0 <= i < |ms| ==>
      (ms[i].isCheap <==> GetPrice(stations[i], fuel).Some? && average > 0 && GetPrice(stations[i], fuel).value < average)
    ensures forall i :: 0 <= i < |ms| ==> ms[i].icon.rankBadge == ms[i].popup.rankBadge
    ensures forall i :: 0 <= i < |ms| ==>
      && ms[i].position == Geolocation.GeoPoint(stations[i].latitud, stations[i].longitud)
      && ms[i].icon == CreateBrandIcon(stations[i], i + 1, ms[i].isCheap, ms[i].isTop)
      && ms[i].popup == BuildPopup(stations[i], fuel, i + 1, ms[i].isCheap, ms[i].isTop)
  {
    seq(|stations|, i requires 0 <= i < |stations| => MarkerAt(stations, i, fuel, average))
  }

  /** At most three markers are top. */
  lemma AtMostThreeTop(stations: seq<Station>, fuel: FuelType, average: nat, i: int)
    requires 0 <= i < |stations| && RenderMarkers(stations, fuel, average)[i].isTop
    ensures i < 3 && RenderMarkers(stations, fuel, average)[i].rank <= 3
  {
  }

  /**
   * On a list sorted by price the highlighted markers form prefixes: the
   * top markers come first, every top station is at least as cheap as
   * every other station, and the cheap markers come before the rest.
   */
  lemma SortedMarkers(stations: seq<Station>, fuel: FuelType, average: nat, i: int, j: int)
    requires PriceOrder.SortedBy(stations, fuel)
    requires 0 <= i < j < |stations|
    ensures var ms := RenderMarkers(stations, fuel, average);
      && (ms[j].isTop ==> ms[i].isTop)
      && (ms[j].isCheap ==> ms[i].isCheap)
      && (ms[i].isTop && !ms[j].isTop ==> PriceOrder.KeyLe(GetPrice(stations[i], fuel), GetPrice(stations[j], fuel)))
  {
    assert PriceOrder.KeyLe(PriceOrder.Key(stations[i], fuel), PriceOrder.Key(stations[j], fuel));
  }

  /** Every top station is at least as cheap as every station that is not top, wherever it sits. */
  lemma TopMarkersAreCheapest(stations: seq<Station>, fuel: FuelType, average: nat, i: int, j: int)
    requires PriceOrder.SortedBy(stations, fuel)
    requires 0 <= i < |stations| && 0 <= j < |stations|
    requires RenderMarkers(stations, fuel, average)[i].isTop && !RenderMarkers(stations, fuel, average)[j].isTop
    ensures PriceOrder.KeyLe(GetPrice(stations[i], fuel), GetPrice(stations[j], fuel))
  {
    if j < i {
      SortedMarkers(stations, fuel, average, j, i);
    } else {
      SortedMarkers(stations, fuel, average, i, j);
    }
  }

  /**
   * The markers drawn for the catalogue, taking the map's `stations` input
   * to be the sorted view, as the ranks presuppose; the average is the
   * catalogue's own.
   */
  function CatalogMarkers(st: Catalog.CatalogState): seq<Marker> {
    RenderMarkers(Catalog.SortedStations(st), st.selectedFuelType, Catalog.Average(st))
  }

  /** On the catalogue's markers the cheap ones, and the top ones, precede the others. */
  lemma CatalogMarkersCheapFirst(st: Catalog.CatalogState, i: int, j: int)
    requires 0 <= i < j < |Catalog.SortedStations(st)|
    ensures CatalogMarkers(st)[j].isCheap ==> CatalogMarkers(st)[i].isCheap
    ensures CatalogMarkers(st)[j].isTop ==> CatalogMarkers(st)[i].isTop
  {
    Catalog.SortedViewIsFilteredView(st);
    SortedMarkers(Catalog.SortedStations(st), st.selectedFuelType, Catalog.Average(st), i, j);
  }

  // ------------------------------------------------------------- fit view

  /** `s.latitud && s.longitud`: a zero coordinate counts as missing. */
  predicate HasCoordinates(s: Station) {
    s.latitud != 0.0 && s.longitud != 0.0
  }

  function PointOf(s: Station): GeoPoint {
    Geolocation.GeoPoint(s.latitud, s.longitud)
  }

  /** The points of the stations whose coordinates are both non-zero, in list order. */
  function StationPoints(stations: seq<Station>): (pts: seq<GeoPoint>)
    ensures |pts| <= |stations|
    ensures forall k :: 0 <= k < |stations| && HasCoordinates(stations[k]) ==>
      PointOf(stations[k]) in pts
    ensures forall p :: p in pts ==>
      exists k :: 0 <= k < |stations| && HasCoordinates(stations[k]) && p == PointOf(stations[k])
  {
    if stations == [] then []
    else
      var rest := StationPoints(stations[1..]);
      assert forall k :: 1 <= k < |stations| ==> stations[k] == stations[1..][k - 1];
      var s := stations[0];
      if HasCoordinates(s) then [PointOf(s)] + rest else rest
  }

  /**
   * The points are exactly the filtered stations' positions, one per
   * station, even where two stations share a position.
   */
  lemma {:induction false} StationPointsAreFiltered(stations: seq<Station>)
    ensures |StationPoints(stations)| == |Seqs.Filter(stations, HasCoordinates)|
    ensures forall k :: 0 <= k < |StationPoints(stations)| ==>
      StationPoints(stations)[k] == PointOf(Seqs.Filter(stations, HasCoordinates)[k])
  {
    if stations != [] {
      var s, t := stations[0], stations[1..];
      StationPointsAreFiltered(t);
      var pts, rest := StationPoints(stations), StationPoints(t);
      var f, g := Seqs.Filter(stations, HasCoordinates), Seqs.Filter(t, HasCoordinates);
      assert f == (if HasCoordinates(s) then [s] else []) + g by {
        assert stations == [s] + t;
        Seqs.FilterCons(s, t, HasCoordinates);
      }
      if HasCoordinates(s) {
        assert pts == [PointOf(s)] + rest && f == [s] + g;
        forall k | 0 <= k < |pts|
          ensures pts[k] == PointOf(f[k])
        {
          if k > 0 {
            assert pts[k] == rest[k - 1] && f[k] == g[k - 1];
          }
        }
      } else {
        assert pts == rest && f == g;
      }
    }
  }

  function OptionToSeq<T>(o: Option<T>): seq<T> {
    if o.Some? then [o.value] else []
  }

  /** The points the camera must show: the stations, then the user, then the search centre. */
  function FitPoints(stations: seq<Station>, userLoc: Option<GeoPoint>, center: Option<GeoPoint>): (pts: seq<GeoPoint>)
    ensures |pts| == |StationPoints(stations)| + (if userLoc.Some? then 1 else 0) + (if center.Some? then 1 else 0)
    ensures forall p :: p in pts <==> p in StationPoints(stations) || userLoc == Some(p) || center == Some(p)
    ensures pts[..|StationPoints(stations)|] == StationPoints(stations)
    ensures userLoc.Some? ==> pts[|StationPoints(stations)|] == userLoc.value
    ensures center.Some? ==> pts[|pts| - 1] == center.value
  {
    StationPoints(stations) + OptionToSeq(userLoc) + OptionToSeq(center)
  }

  /** A latitude / longitude rectangle, edges included. */
  datatype Box = Box(south: real, west: real, north: real, east: real)

  predicate Inside(p: GeoPoint, b: Box) {
    b.south <= p.latitude <= b.north && b.west <= p.longitude <= b.east
  }

  /** `L.latLngBounds(points)`: the smallest rectangle holding every point. */
  function BoundingBox(pts: seq<GeoPoint>): (b: Box)
    requires pts != []
    ensures forall k :: 0 <= k < |pts| ==> Inside(pts[k], b)
    ensures exists k :: 0 <= k < |pts| && pts[k].latitude == b.south
    ensures exists k :: 0 <= k < |pts| && pts[k].latitude == b.north
    ensures exists k :: 0 <= k < |pts| && pts[k].longitude == b.west
    ensures exists k :: 0 <= k < |pts| && pts[k].longitude == b.east
  {
    var p := pts[0];
    if |pts| == 1 then Box(p.latitude, p.longitude, p.latitude, p.longitude)
    else
      var b := BoundingBox(pts[1..]);
      assert forall k :: 1 <= k < |pts| ==> pts[k] == pts[1..][k - 1];
      Box(if p.latitude < b.south then p.latitude else b.south,
          if p.longitude < b.west then p.longitude else b.west,
          if p.latitude > b.north then p.latitude else b.north,
          if p.longitude > b.east then p.longitude else b.east)
  }

  const FIT_PADDING := 40
  const FIT_MAX_ZOOM := 14
  const SINGLE_POINT_ZOOM := 13

  /** A camera request the component makes of the map. */
  datatype CameraAction =
    | NoChange
    | FitBounds(box: Box, padding: nat, maxZoom: nat)
    | SetView(center: GeoPoint, zoom: nat)
    | PanTo(target: GeoPoint)

  /**
   * `fitView`: no move without points, centre on a lone point at zoom 13,
   * otherwise fit the bounding rectangle of all points with 40 pixels of
   * padding and at most zoom 14.
   */
  function FitView(stations: seq<Station>, userLoc: Option<GeoPoint>, center: Option<GeoPoint>): (a: CameraAction)
    ensures var pts := FitPoints(stations, userLoc, center);
      && (a.NoChange? <==> pts == [])
      && (a.SetView? <==> |pts| == 1)
      && (a.SetView? ==> a == SetView(pts[0], SINGLE_POINT_ZOOM))
      && (a.FitBounds? <==> |pts| > 1)
      && (a.FitBounds? ==> a.padding == FIT_PADDING && a.maxZoom == FIT_MAX_ZOOM
                           && a.box == BoundingBox(pts)
                           && forall k :: 0 <= k < |pts| ==> Inside(pts[k], a.box))
    ensures !a.PanTo?
  {
    var pts := FitPoints(stations, userLoc, center);
    if |pts| > 1 then FitBounds(BoundingBox(pts), FIT_PADDING, FIT_MAX_ZOOM)
    else if |pts| == 1 then SetView(pts[0], SINGLE_POINT_ZOOM)
    else NoChange
  }

  /**
   * Whenever the view is fitted to a rectangle, the rectangle holds every
   * located station, the user and the search centre.
   */
  lemma FitViewShowsEverything(stations: seq<Station>, userLoc: Option<GeoPoint>, center: Option<GeoPoint>, k: int)
    requires FitView(stations, userLoc, center).FitBounds?
    ensures var box := FitView(stations, userLoc, center).box;
      && (0 <= k < |stations| && HasCoordinates(stations[k]) ==>
            Inside(Geolocation.GeoPoint(stations[k].latitud, stations[k].longitud), box))
      && (userLoc.Some? ==> Inside(userLoc.value, box))
      && (center.Some? ==> Inside(center.value, box))
  {
    var pts := FitPoints(stations, userLoc, center);
    forall p | p in pts
      ensures Inside(p, FitView(stations, userLoc, center).box)
    {
      var i :| 0 <= i < |pts| && pts[i] == p;
    }
  }

  /** A station on the equator or on the Greenwich meridian is not among the points fitted. */
  lemma ZeroCoordinateIsNotFitted(s: Station)
    requires s.longitud == 0.0
    ensures FitPoints([s], None, None) == []
  {
  }

  // ---------------------------------------------------------------- overlays

  function Abs(x: real): real {
    if x < 0.0 then -x else x
  }

  const SAME_PLACE_TOLERANCE := 0.001

  /**
   * `updateSearchCenter`: a pin at the search centre, unless there is none
   * or it lies within 0.001 degrees of the user on both axes.
   */
  function SearchCenterPin(center: Option<GeoPoint>, userLoc: Option<GeoPoint>): (pin: Option<GeoPoint>)
    ensures pin.Some? ==> pin == center
    ensures pin.None? <==> (center.None? ||
      (userLoc.Some?
       && -SAME_PLACE_TOLERANCE <= center.value.latitude - userLoc.value.latitude <= SAME_PLACE_TOLERANCE
       && -SAME_PLACE_TOLERANCE <= center.value.longitude - userLoc.value.longitude <= SAME_PLACE_TOLERANCE))
  {
    match center
    case None => None
    case Some(c) =>
      if userLoc.None?
         || Abs(c.latitude - userLoc.value.latitude) > SAME_PLACE_TOLERANCE
         || Abs(c.longitude - userLoc.value.longitude) > SAME_PLACE_TOLERANCE
      then Some(c)
      else None
  }

  /** A search centred on the user draws no extra pin; a search elsewhere does. */
  lemma SearchCenterPinExamples()
    ensures SearchCenterPin(Some(Geolocation.GeoPoint(40.0, -3.0)), Some(Geolocation.GeoPoint(40.0, -3.0))) == None
    ensures SearchCenterPin(Some(Geolocation.GeoPoint(40.1, -3.0)), Some(Geolocation.GeoPoint(40.0, -3.0)))
            == Some(Geolocation.GeoPoint(40.1, -3.0))
    ensures SearchCenterPin(Some(Geolocation.GeoPoint(40.0, -3.0)), None) == Some(Geolocation.GeoPoint(40.0, -3.0))
  {
  }

  /**
   * `updateHighlight`: a ring at the highlighted station, and a pan to it
   * exactly when it lies outside the current view.
   */
  function UpdateHighlight(station: Option<Station>, view: Box): (r: (Option<GeoPoint>, CameraAction))
    ensures r.0.Some? <==> station.Some?
    ensures r.0.Some? ==> r.0.value == Geolocation.GeoPoint(station.value.latitud, station.value.longitud)
    ensures r.1.PanTo? <==> station.Some? && !Inside(r.0.value, view)
    ensures r.1.PanTo? ==> r.1.target == r.0.value
    ensures !r.1.PanTo? ==> r.1.NoChange?
  {
    match station
    case None => (None, NoChange)
    case Some(s) =>
      var p := Geolocation.GeoPoint(s.latitud, s.longitud);
      (Some(p), if Inside(p, view) then NoChange else PanTo(p))
  }

  /** Highlighting the same station again from the view the pan produced does not move the map. */
  lemma HighlightPanSettles(s: Station, view: Box, after: Box)
    requires Inside(Geolocation.GeoPoint(s.latitud, s.longitud), after)
    ensures UpdateHighlight(Some(s), after).1 == NoChange
  {
  }

  // ------------------------------------------------------------------- tiles

  const DARK_TILES := "https://{s}.basemaps.cartocdn.com/dark_all/{z}/{x}/{y}{r}.png"
  const LIGHT_TILES := "https://{s}.basemaps.cartocdn.com/light_all/{z}/{x}/{y}{r}.png"

  /** The dark tiles for the resolved theme "dark", the light ones for anything else. */
  function TilesFor(theme: string): (url: string)
    ensures url == DARK_TILES <==> theme == Theme.DARK
    ensures url == DARK_TILES || url == LIGHT_TILES
  {
    if theme == Theme.DARK then DARK_TILES else LIGHT_TILES
  }

  /**
   * With the theme applied, the tiles follow the mode: dark for "dark",
   * light for "light", and for "system" whatever the preference resolves to.
   */
  lemma TilesFollowTheme(st: Theme.ThemeState)
    requires Theme.Applied(st)
    ensures st.mode == Theme.DARK ==> TilesFor(st.resolvedTheme) == DARK_TILES
    ensures st.mode == Theme.LIGHT ==> TilesFor(st.resolvedTheme) == LIGHT_TILES
    ensures st.mode == Theme.SYSTEM ==>
      (TilesFor(st.resolvedTheme) == DARK_TILES <==> st.prefersDark == Some(true))
  {
  }

  // ------------------------------------------------------------------- state

  /** Madrid, zoom 6: where the map starts. */
  const INITIAL_CENTER := Geolocation.GeoPoint(40.4168, -3.7038)
  const INITIAL_ZOOM := 6

  /** What the inputs and collaborator signals currently hold. */
  datatype Inputs = Inputs(
    stations: seq<Station>,
    userLocation: Option<GeoPoint>,
    highlighted: Option<Station>,
    fuel: FuelType,
    average: nat,
    resolvedTheme: string,
    searchCenter: Option<GeoPoint>)

  /** The layers the component has drawn on the map. */
  datatype MapState = MapState(
    ready: bool,
    markers: seq<Marker>,
    userMarker: Option<GeoPoint>,
    highlight: Option<GeoPoint>,
    searchPin: Option<GeoPoint>,
    tiles: Option<string>)

  const Created := MapState(false, [], None, None, None, None)

  /** `initMap` then `mapReady.set(true)`: tiles for the current theme, the camera on Madrid. */
  function InitMap(st: MapState, resolvedTheme: string): (r: (MapState, CameraAction))
    requires !st.ready
    ensures r.0.ready && r.0.tiles == Some(TilesFor(resolvedTheme))
    ensures r.0.markers == st.markers && r.0.highlight == st.highlight && r.0.searchPin == st.searchPin
    ensures r.1 == SetView(INITIAL_CENTER, INITIAL_ZOOM)
  {
    (st.(ready := true, tiles := Some(TilesFor(resolvedTheme))), SetView(INITIAL_CENTER, INITIAL_ZOOM))
  }

  /** The data effect: markers for the stations, the user dot, and a fitted view. */
  function DataEffect(st: MapState, inp: Inputs): (r: (MapState, CameraAction))
    ensures !st.ready ==> r == (st, NoChange)
    ensures st.ready ==> r.0.markers == RenderMarkers(inp.stations, inp.fuel, inp.average)
                         && r.0.userMarker == inp.userLocation
                         && r.1 == FitView(inp.stations, inp.userLocation, inp.searchCenter)
    ensures r.0.ready == st.ready && r.0.highlight == st.highlight && r.0.searchPin == st.searchPin
    ensures r.0.tiles == st.tiles
  {
    if !st.ready then (st, NoChange)
    else (st.(markers := RenderMarkers(inp.stations, inp.fuel, inp.average), userMarker := inp.userLocation),
          FitView(inp.stations, inp.userLocation, inp.searchCenter))
  }

  /** The highlight effect, against the map's current view. */
  function HighlightEffect(st: MapState, inp: Inputs, view: Box): (r: (MapState, CameraAction))
    ensures !st.ready ==> r == (st, NoChange)
    ensures st.ready ==> r.0.highlight == UpdateHighlight(inp.highlighted, view).0
                         && r.1 == UpdateHighlight(inp.highlighted, view).1
    ensures r.0.ready == st.ready && r.0.markers == st.markers && r.0.userMarker == st.userMarker
    ensures r.0.searchPin == st.searchPin && r.0.tiles == st.tiles
  {
    if !st.ready then (st, NoChange)
    else
      var h := UpdateHighlight(inp.highlighted, view);
      (st.(highlight := h.0), h.1)
  }

  /** The theme effect: the tile layer is replaced by the one for the resolved theme. */
  function ThemeEffect(st: MapState, inp: Inputs): (r: MapState)
    ensures !st.ready ==> r == st
    ensures st.ready ==> r.tiles == Some(TilesFor(inp.resolvedTheme))
    ensures r.ready == st.ready && r.markers == st.markers && r.userMarker == st.userMarker
    ensures r.highlight == st.highlight && r.searchPin == st.searchPin
  {
    if !st.ready then st else st.(tiles := Some(TilesFor(inp.resolvedTheme)))
  }

  /** The search-centre effect. */
  function SearchCenterEffect(st: MapState, inp: Inputs): (r: MapState)
    ensures !st.ready ==> r == st
    ensures st.ready ==> r.searchPin == SearchCenterPin(inp.searchCenter, inp.userLocation)
    ensures r.ready == st.ready && r.markers == st.markers && r.userMarker == st.userMarker
    ensures r.highlight == st.highlight && r.tiles == st.tiles
  {
    if !st.ready then st else st.(searchPin := SearchCenterPin(inp.searchCenter, inp.userLocation))
  }

  /**
   * The effects draw on disjoint layers, so the layers do not depend on
   * the order in which the framework runs them; nor does the camera
   * request of the data effect, or that of the highlight effect for a
   * given view.  Which view the highlight effect sees does depend on the
   * order, because a fitted view moves the camera first.
   */
  lemma {:induction false} EffectsCommute(st: MapState, inp: Inputs, view: Box)
    ensures ThemeEffect(DataEffect(st, inp).0, inp) == DataEffect(ThemeEffect(st, inp), inp).0
    ensures SearchCenterEffect(DataEffect(st, inp).0, inp) == DataEffect(SearchCenterEffect(st, inp), inp).0
    ensures SearchCenterEffect(ThemeEffect(st, inp), inp) == ThemeEffect(SearchCenterEffect(st, inp), inp)
    ensures HighlightEffect(DataEffect(st, inp).0, inp, view).0 == DataEffect(HighlightEffect(st, inp, view).0, inp).0
    ensures ThemeEffect(HighlightEffect(st, inp, view).0, inp) == HighlightEffect(ThemeEffect(st, inp), inp, view).0
    ensures DataEffect(HighlightEffect(st, inp, view).0, inp).1 == DataEffect(st, inp).1
    ensures HighlightEffect(DataEffect(st, inp).0, inp, view).1 == HighlightEffect(st, inp, view).1
  {
  }

  /** Running every effect twice draws the same layers as running it once. */
  lemma EffectsIdempotent(st: MapState, inp: Inputs, view: Box)
    ensures DataEffect(DataEffect(st, inp).0, inp).0 == DataEffect(st, inp).0
    ensures HighlightEffect(HighlightEffect(st, inp, view).0, inp, view).0 == HighlightEffect(st, inp, view).0
    ensures ThemeEffect(ThemeEffect(st, inp), inp) == ThemeEffect(st, inp)
    ensures SearchCenterEffect(SearchCenterEffect(st, inp), inp) == SearchCenterEffect(st, inp)
  {
  }
}

=== FILE: navbar.dfy ===
/**
 * The navigation bar's search box (navbar.ts): pressing Enter on a query
 * that matches no loaded station asks the geocoder for it.
 */
module Navbar {
  import opened Wrappers
  import opened Text
  import Catalog
  import Geolocation

  /**
   * `onSearchKeydown`: the query handed to `searchByLocation`, if any.  Only
   * Enter, with a non-blank trimmed query and an empty filter result, does so.
   */
  function OnSearchKeydown(st: Catalog.CatalogState, key: string): (r: Option<string>)
    ensures key != "Enter" ==> r == None
    ensures Trim(st.searchQuery) == [] ==> r == None
    ensures Catalog.FilteredStations(st) != [] ==> r == None
    ensures key == "Enter" && Trim(st.searchQuery) != [] && Catalog.FilteredStations(st) == [] ==>
      r == Some(Trim(st.searchQuery))
  {
    if key == "Enter" then
      var query := Trim(st.searchQuery);
      if query != [] && |Catalog.FilteredStations(st)| == 0 then Some(query) else None
    else None
  }

  /**
   * A geocoding search starts only when no loaded station matches the
   * query, and the query it is given is never blank, so the search is not
   * ignored.
   */
  lemma {:induction false} SearchOnlyWithoutMatches(st: Catalog.CatalogState, key: string)
    requires OnSearchKeydown(st, key).Some?
    ensures forall s :: s in st.stations ==> !Catalog.Matches(s, Catalog.NormalizeQuery(st.searchQuery))
    ensures !AllWhitespace(OnSearchKeydown(st, key).value)
  {
    var q := st.searchQuery;
    Catalog.NormalizedQueryEmpty(q);
    assert !AllWhitespace(q);
    var f := Catalog.FilteredStations(st);
    forall s | s in st.stations
      ensures !Catalog.Matches(s, Catalog.NormalizeQuery(q))
    {
      assert multiset(f)[s] == 0;
    }
  }

  /** The whole Enter path: the key rule, then `searchByLocation` with the geocoder's and loader's answers. */
  function SubmitSearch(st: Catalog.CatalogState, key: string,
                        geocoded: Catalog.Fetch<seq<Geolocation.GeoPoint>>,
                        response: Catalog.Fetch<seq<Catalog.RawStation>>): (r: Catalog.CatalogState)
    ensures OnSearchKeydown(st, key).None? ==> r == st
    ensures OnSearchKeydown(st, key).Some? && geocoded.Fetched? && geocoded.value != [] ==>
      r.searchQuery == "" && r.searchCenter == Some(geocoded.value[0]) && r.lastRadius == st.lastRadius
      && !r.isLoading && r.selectedFuelType == st.selectedFuelType
      && r.stations == (if response.Fetched? then Catalog.MapRadioResponse(response.value) else [])
      && r.error == (if response.Fetched? then None else Some(Catalog.RADIUS_ERROR_MESSAGE))
    ensures OnSearchKeydown(st, key).Some? && (geocoded.FetchFailed? || geocoded.value == []) ==> r == st
  {
    match OnSearchKeydown(st, key)
    case None => st
    case Some(query) =>
      SearchOnlyWithoutMatches(st, key);
      Catalog.SearchByLocation(st, query, geocoded, response)
  }
}

=== FILE: price_order.dfy ===
/**
 * The price ordering behind `sortedStations` (fuel.service.ts): the
 * comparator `(getPrice(a) ?? Infinity) - (getPrice(b) ?? Infinity)` and the
 * stable sort `Array.prototype.sort` performs with it.
 */
module PriceOrder {
  import opened Wrappers
  import opened Stations
  import Seqs

  /**
   * The sign of the comparator.  A missing price is +Infinity; two missing
   * prices give Infinity - Infinity = NaN, which the sort treats as +0.
   */
  function Comparator(a: Option<Price>, b: Option<Price>): (c: int)
    ensures c == -1 || c == 0 || c == 1
  {
    match (a, b)
    case (Some(x), Some(y)) => if x < y then -1 else if x == y then 0 else 1
    case (Some(_), None) => -1
    case (None, Some(_)) => 1
    case (None, None) => 0
  }

  /** `a` may come before `b`: a missing price is larger than every present one. */
  predicate KeyLe(a: Option<Price>, b: Option<Price>) {
    b.None? || (a.Some? && a.value <= b.value)
  }

  /**
   * The comparator is consistent, as the sort needs: it agrees with `KeyLe`,
   * swapping its arguments flips its sign, and `KeyLe` is a total preorder.
   */
  lemma {:induction false} ComparatorIsConsistent(a: Option<Price>, b: Option<Price>, c: Option<Price>)
    ensures KeyLe(a, b) <==> Comparator(a, b) <= 0
    ensures Comparator(a, b) == -Comparator(b, a)
    ensures KeyLe(a, b) || KeyLe(b, a)
    ensures KeyLe(a, b) && KeyLe(b, c) ==> KeyLe(a, c)
  {
  }

  function Key(s: Station, fuel: FuelType): Option<Price> {
    GetPrice(s, fuel)
  }

  predicate SortedBy(s: seq<Station>, fuel: FuelType) {
    forall i, j :: 0 <= i < j < |s| ==> KeyLe(Key(s[i], fuel), Key(s[j], fuel))
  }

  /** The test "the selected price is exactly `k`". */
  function KeyIs(fuel: FuelType, k: Option<Price>): Station -> bool {
    (x: Station) => Key(x, fuel) == k
  }

  /** The stations whose selected price is exactly `k`, in order. */
  function WithKey(s: seq<Station>, fuel: FuelType, k: Option<Price>): seq<Station> {
    Seqs.Filter(s, KeyIs(fuel, k))
  }

  /** Places `x` before the first station of `t` whose price is not below its own. */
  function Insert(x: Station, t: seq<Station>, fuel: FuelType): (r: seq<Station>)
    ensures |r| == |t| + 1
    ensures multiset(r) == multiset(t) + multiset{x}
    ensures SortedBy(t, fuel) ==> SortedBy(r, fuel)
  {
    if t == [] || KeyLe(Key(x, fuel), Key(t[0], fuel)) then
      InsertFront(x, t, fuel);
      [x] + t
    else
      var rest := Insert(x, t[1..], fuel);
      assert t == [t[0]] + t[1..];
      InsertBehind(x, t, rest, fuel);
      [t[0]] + rest
  }

  lemma InsertFront(x: Station, t: seq<Station>, fuel: FuelType)
    requires t == [] || KeyLe(Key(x, fuel), Key(t[0], fuel))
    ensures SortedBy(t, fuel) ==> SortedBy([x] + t, fuel)
  {
    if SortedBy(t, fuel) {
      forall i, j | 0 <= i < j < |[x] + t|
        ensures KeyLe(Key(([x] + t)[i], fuel), Key(([x] + t)[j], fuel))
      {
        if i == 0 && j > 1 {
          assert KeyLe(Key(t[0], fuel), Key(t[j - 1], fuel));
        }
      }
    }
  }

  lemma InsertBehind(x: Station, t: seq<Station>, rest: seq<Station>, fuel: FuelType)
    requires t != [] && !KeyLe(Key(x, fuel), Key(t[0], fuel))
    requires multiset(rest) == multiset(t[1..]) + multiset{x}
    requires SortedBy(t[1..], fuel) ==> SortedBy(rest, fuel)
    ensures SortedBy(t, fuel) ==> SortedBy([t[0]] + rest, fuel)
  {
    if SortedBy(t, fuel) {
      assert SortedBy(t[1..], fuel);
      forall j | 0 <= j < |rest|
        ensures KeyLe(Key(t[0], fuel), Key(rest[j], fuel))
      {
        assert rest[j] in multiset(rest);
        if rest[j] != x {
          assert rest[j] in multiset(t[1..]);
          var m :| 0 <= m < |t[1..]| && t[1..][m] == rest[j];
          assert t[m + 1] == rest[j];
        }
      }
    }
  }

  /**
   * `sortedStations`: a stable sort by the selected price, ascending, with
   * unpriced stations last.  A permutation of its input, ordered by price.
   */
  function SortByPrice(s: seq<Station>, fuel: FuelType): (r: seq<Station>)
    ensures |r| == |s|
    ensures multiset(r) == multiset(s)
    ensures SortedBy(r, fuel)
  {
    if s == [] then []
    else
      assert s == [s[0]] + s[1..];
      Insert(s[0], SortByPrice(s[1..], fuel), fuel)
  }

  /** In a price-sorted list every priced station precedes every unpriced one. */
  lemma PricedBeforeUnpriced(r: seq<Station>, fuel: FuelType, i: int, j: int)
    requires SortedBy(r, fuel)
    requires 0 <= i < |r| && 0 <= j < |r|
    requires Key(r[i], fuel).Some? && Key(r[j], fuel).None?
    ensures i < j
  {
  }

  lemma {:induction false} InsertKeepsTies(x: Station, t: seq<Station>, fuel: FuelType, k: Option<Price>)
    ensures WithKey(Insert(x, t, fuel), fuel, k)
         == if Key(x, fuel) == k then [x] + WithKey(t, fuel, k) else WithKey(t, fuel, k)
  {
    if t == [] || KeyLe(Key(x, fuel), Key(t[0], fuel)) {
      InsertFrontKeepsTies(x, t, fuel, k);
    } else {
      InsertKeepsTies(x, t[1..], fuel, k);
      InsertBehindKeepsTies(x, t, fuel, k);
    }
  }

  /** The base case of `InsertKeepsTies`: `x` goes in front. */
  lemma InsertFrontKeepsTies(x: Station, t: seq<Station>, fuel: FuelType, k: Option<Price>)
    requires t == [] || KeyLe(Key(x, fuel), Key(t[0], fuel))
    ensures WithKey(Insert(x, t, fuel), fuel, k)
         == if Key(x, fuel) == k then [x] + WithKey(t, fuel, k) else WithKey(t, fuel, k)
  {
    assert Insert(x, t, fuel) == [x] + t;
    Seqs.FilterCons(x, t, KeyIs(fuel, k));
  }

  /** The step of `InsertKeepsTies`: `x` is inserted behind the head of `t`. */
  lemma InsertBehindKeepsTies(x: Station, t: seq<Station>, fuel: FuelType, k: Option<Price>)
    requires t != [] && !KeyLe(Key(x, fuel), Key(t[0], fuel))
    requires WithKey(Insert(x, t[1..], fuel), fuel, k)
          == if Key(x, fuel) == k then [x] + WithKey(t[1..], fuel, k) else WithKey(t[1..], fuel, k)
    ensures WithKey(Insert(x, t, fuel), fuel, k)
         == if Key(x, fuel) == k then [x] + WithKey(t, fuel, k) else WithKey(t, fuel, k)
  {
    TiesBehind(x, t, Insert(x, t[1..], fuel), Insert(x, t, fuel), fuel, k);
  }

  /**
   * The inductive step of `InsertKeepsTies`, stated without `Insert`: `x`
   * moves past the head of `t`, which is strictly cheaper and so never
   * shares its price.
   */
  lemma TiesBehind(x: Station, t: seq<Station>, rest: seq<Station>, r: seq<Station>, fuel: FuelType, k: Option<Price>)
    requires t != [] && !KeyLe(Key(x, fuel), Key(t[0], fuel))
    requires r == [t[0]] + rest
    requires WithKey(rest, fuel, k) == if Key(x, fuel) == k then [x] + WithKey(t[1..], fuel, k) else WithKey(t[1..], fuel, k)
    ensures WithKey(r, fuel, k) == if Key(x, fuel) == k then [x] + WithKey(t, fuel, k) else WithKey(t, fuel, k)
  {
    Seqs.FilterCons(t[0], rest, KeyIs(fuel, k));
    Seqs.FilterCons(t[0], t[1..], KeyIs(fuel, k));
    assert [t[0]] + t[1..] == t;
    if Key(x, fuel) == k {
      assert Key(t[0], fuel) != k;
    }
  }

  /**
   * The sort is stable: the stations sharing any one price (including all
   * the unpriced ones) appear in the order they had before sorting.
   */
  lemma {:induction false} SortIsStable(s: seq<Station>, fuel: FuelType, k: Option<Price>)
    ensures WithKey(SortByPrice(s, fuel), fuel, k) == WithKey(s, fuel, k)
  {
    if s != [] {
      SortIsStable(s[1..], fuel, k);
      InsertKeepsTies(s[0], SortByPrice(s[1..], fuel), fuel, k);
      Seqs.FilterCons(s[0], s[1..], KeyIs(fuel, k));
      assert [s[0]] + s[1..] == s;
    }
  }
}

=== FILE: scenarios.dfy ===
/**
 * Worked examples of the whole pipeline on small concrete inputs: the
 * average of a handful of prices, a diesel search from load to markers,
 * and the case-insensitive locality filter.
 */
module Scenarios {
  import opened Wrappers
  import opened Stations
  import Catalog
  import PriceOrder
  import MapView
  import StatsBar
  import Seqs
  import Text

  /** A station named after its locality, with only a diesel price. */
  function DieselStation(id: int, localidad: string, diesel: Option<Price>): Station {
    Station(id, localidad, "", 40.4, -3.7, None, Some(localidad), None, None, None,
            diesel, None, None, None, None, None, None)
  }

  /** The answer record the station above is mapped from. */
  function RawDieselStation(id: int, localidad: string, diesel: Option<Price>): (raw: Catalog.RawStation)
    ensures Catalog.MapRadioItem(raw) == DieselStation(id, localidad, diesel)
  {
    Catalog.RawStation(id, Some(localidad), Some(""), 40.4, -3.7, None, Some(localidad), None, None, None,
                       diesel, None, None, None, None, None, None)
  }

  const RA := RawDieselStation(1, "Getafe", Some(1450))
  const RB := RawDieselStation(2, "Leganes", Some(1300))
  const RC := RawDieselStation(3, "Alcorcon", Some(1600))
  const RD := RawDieselStation(4, "Mostoles", None)

  const A := DieselStation(1, "Getafe", Some(1450))
  const B := DieselStation(2, "Leganes", Some(1300))
  const C := DieselStation(3, "Alcorcon", Some(1600))
  const D := DieselStation(4, "Mostoles", None)

  /** Prices 1.500, 1.700, none and 1.600 average to 1.600; the unpriced station is ignored. */
  lemma AverageOfThreePrices()
    ensures Catalog.AveragePrice([DieselStation(1, "a", Some(1500)), DieselStation(2, "b", Some(1700)),
                                  DieselStation(3, "c", None), DieselStation(4, "d", Some(1600))], Diesel) == 1600
  {
  }

  /** Sorting one station more inserts it into the sorted rest. */
  lemma SortStep(x: Station, t: seq<Station>)
    ensures PriceOrder.SortByPrice([x] + t, Diesel) == PriceOrder.Insert(x, PriceOrder.SortByPrice(t, Diesel), Diesel)
  {
    assert ([x] + t)[1..] == t;
  }

  /** Inserting in front of a station whose price is not below. */
  lemma InsertHere(x: Station, y: Station, t: seq<Station>)
    requires PriceOrder.KeyLe(x.precioDiesel, y.precioDiesel)
    ensures PriceOrder.Insert(x, [y] + t, Diesel) == [x, y] + t
  {
  }

  /** Inserting behind a station with a lower price. */
  lemma InsertLater(x: Station, y: Station, t: seq<Station>)
    requires !PriceOrder.KeyLe(x.precioDiesel, y.precioDiesel)
    ensures PriceOrder.Insert(x, [y] + t, Diesel) == [y] + PriceOrder.Insert(x, t, Diesel)
  {
    assert ([y] + t)[1..] == t;
  }

  lemma SortTwo(c: Station, d: Station)
    requires c.precioDiesel == Some(1600) && d.precioDiesel == None
    ensures PriceOrder.SortByPrice([c, d], Diesel) == [c, d]
  {
    Displays(c, d, d, d);
    SortStep(d, []);
    SortStep(c, [d]);
    InsertHere(c, d, []);
  }

  lemma SortThree(b: Station, c: Station, d: Station)
    requires b.precioDiesel == Some(1300) && c.precioDiesel == Some(1600) && d.precioDiesel == None
    ensures PriceOrder.SortByPrice([b, c, d], Diesel) == [b, c, d]
  {
    Displays(b, c, d, d);
    SortTwo(c, d);
    SortStep(b, [c, d]);
    InsertHere(b, c, [d]);
  }

  lemma SortStepFour(a: Station, b: Station, c: Station, d: Station)
    ensures PriceOrder.SortByPrice([a, b, c, d], Diesel)
         == PriceOrder.Insert(a, PriceOrder.SortByPrice([b, c, d], Diesel), Diesel)
  {
    Displays(a, b, c, d);
    SortStep(a, [b, c, d]);
  }

  lemma InsertSecond(a: Station, b: Station, c: Station, d: Station)
    requires a.precioDiesel == Some(1450) && b.precioDiesel == Some(1300) && c.precioDiesel == Some(1600)
    ensures PriceOrder.Insert(a, [b, c, d], Diesel) == [b, a, c, d]
  {
    Displays(b, c, d, d);
    Displays(a, c, d, d);
    Displays(b, a, c, d);
    InsertHere(a, c, [d]);
    InsertLater(a, b, [c, d]);
  }

  /** Short sequence displays written as a head and a tail. */
  lemma Displays<T>(w: T, x: T, y: T, z: T)
    ensures [w] + [] == [w] && [w] + [x] == [w, x]
    ensures [w] + [x, y] == [w, x, y] && [w, x] + [y] == [w, x, y]
    ensures [w] + [x, y, z] == [w, x, y, z]
  {
  }

  /** Any four stations with diesel prices 1.450, 1.300, 1.600 and none sort as 1.300, 1.450, 1.600, none. */
  lemma SortFour(a: Station, b: Station, c: Station, d: Station)
    requires a.precioDiesel == Some(1450) && b.precioDiesel == Some(1300)
    requires c.precioDiesel == Some(1600) && d.precioDiesel == None
    ensures PriceOrder.SortByPrice([a, b, c, d], Diesel) == [b, a, c, d]
  {
    SortThree(b, c, d);
    SortStepFour(a, b, c, d);
    InsertSecond(a, b, c, d);
  }

  /** The loaded diesel stations sort as 1.300, 1.450, 1.600, then the unpriced one. */
  lemma DieselSortOrder()
    ensures PriceOrder.SortByPrice([A, B, C, D], Diesel) == [B, A, C, D]
  {
    SortFour(A, B, C, D);
  }

  /** Prices 1.300, 1.450, 1.600 and none average to 1.450. */
  lemma AverageFour(w: Station, x: Station, y: Station, z: Station)
    requires w.precioDiesel == Some(1300) && x.precioDiesel == Some(1450)
    requires y.precioDiesel == Some(1600) && z.precioDiesel == None
    ensures Catalog.AveragePrice([w, x, y, z], Diesel) == 1450
  {
    assert [w, x, y, z][1..] == [x, y, z] && [x, y, z][1..] == [y, z] && [y, z][1..] == [z] && [z][1..] == [];
    assert Catalog.PriceCount([], Diesel) == 0 && Catalog.PriceSum([], Diesel) == 0;
    assert !Catalog.HasPositivePrice(z, Diesel);
    assert Catalog.PriceCount([z], Diesel) == 0 && Catalog.PriceSum([z], Diesel) == 0;
    assert Catalog.PriceCount([y, z], Diesel) == 1 && Catalog.PriceSum([y, z], Diesel) == 1600;
    assert Catalog.PriceCount([x, y, z], Diesel) == 2 && Catalog.PriceSum([x, y, z], Diesel) == 3050;
    assert Catalog.PriceCount([w, x, y, z], Diesel) == 3 && Catalog.PriceSum([w, x, y, z], Diesel) == 4350;
  }

  /** With prices 1.300, 1.450, 1.600 and none against an average of 1.450: three top markers, one cheap. */
  lemma MarkersFour(w: Station, x: Station, y: Station, z: Station)
    requires w.precioDiesel == Some(1300) && x.precioDiesel == Some(1450)
    requires y.precioDiesel == Some(1600) && z.precioDiesel == None
    ensures var ms := MapView.RenderMarkers([w, x, y, z], Diesel, 1450);
      && ms[0].isTop && ms[1].isTop && ms[2].isTop && !ms[3].isTop
      && ms[0].isCheap && !ms[1].isCheap && !ms[2].isCheap && !ms[3].isCheap
  {
  }

  /** The answer of the example maps to the four stations. */
  lemma LoadedExample(st: Catalog.CatalogState)
    ensures Catalog.LoadStationsByRadius(st, 40.4167, -3.7033, 20.0, Catalog.Fetched([RA, RB, RC, RD])).stations
            == [A, B, C, D]
  {
    var mapped := Catalog.MapRadioResponse([RA, RB, RC, RD]);
    assert mapped[0] == A && mapped[1] == B && mapped[2] == C && mapped[3] == D;
  }

  /** After a successful load the catalogue shows that order, three top markers and an average of 1.450. */
  lemma DieselSearchEndToEnd(st: Catalog.CatalogState)
    requires st.selectedFuelType == Diesel && st.searchQuery == ""
    ensures var loaded := Catalog.LoadStationsByRadius(st, 40.4167, -3.7033, 20.0, Catalog.Fetched([RA, RB, RC, RD]));
      && Catalog.SortedStations(loaded) == [B, A, C, D]
      && Catalog.Average(loaded) == 1450
      && var ms := MapView.CatalogMarkers(loaded);
         ms[0].isTop && ms[1].isTop && ms[2].isTop && !ms[3].isTop
         && ms[0].isCheap && !ms[1].isCheap && !ms[2].isCheap && !ms[3].isCheap
  {
    var loaded := Catalog.LoadStationsByRadius(st, 40.4167, -3.7033, 20.0, Catalog.Fetched([RA, RB, RC, RD]));
    assert Catalog.FilteredStations(loaded) == [A, B, C, D] by {
      LoadedExample(st);
      Catalog.NormalizedQueryEmpty("");
    }
    assert Catalog.SortedStations(loaded) == [B, A, C, D] by {
      DieselSortOrder();
    }
    assert Catalog.Average(loaded) == 1450 by {
      AverageFour(B, A, C, D);
    }
    MarkersFour(B, A, C, D);
  }

  /** Of two stations, a query keeps exactly the one it matches. */
  lemma FilterKeepsMatch(m: Station, o: Station, query: string)
    requires Catalog.NormalizeQuery(query) != []
    requires Catalog.Matches(m, Catalog.NormalizeQuery(query)) && !Catalog.Matches(o, Catalog.NormalizeQuery(query))
    ensures Catalog.FilterStations([m, o], query) == [m]
  {
    var q := Catalog.NormalizeQuery(query);
    var p := (s: Station) => Catalog.Matches(s, q);
    Seqs.FilterCons(o, [], p);
    Seqs.FilterCons(m, [o], p);
    assert [m] + [o] == [m, o] && [o] + [] == [o];
  }

  const MADRID := DieselStation(5, "Madrid", None)
  const BARCELONA := DieselStation(6, "Barcelona", None)

  /** A string without the needle's first letter does not contain the needle. */
  lemma FirstLetterMissing(hay: string, needle: string)
    requires needle != [] && forall k :: 0 <= k < |hay| ==> hay[k] != needle[0]
    ensures !Text.Contains(hay, needle)
  {
    forall i | 0 <= i <= |hay| - |needle|
      ensures !Text.OccursAt(needle, hay, i)
    {
      assert hay[i..i + |needle|][0] == hay[i];
    }
  }

  lemma QueryIsMadrid()
    ensures Catalog.NormalizeQuery("madrid") == "madrid"
  {
    assert Text.ToLower("madrid") == "madrid";
    Text.TrimOfTrimmed("madrid");
  }

  lemma MadridMatches()
    ensures Catalog.Matches(MADRID, "madrid")
  {
    assert Text.ToLower("Madrid") == "madrid";
    assert Text.OccursAt("madrid", "madrid", 0);
  }

  lemma BarcelonaDoesNotMatch()
    ensures !Catalog.Matches(BARCELONA, "madrid")
  {
    assert !Text.Contains(Text.ToLower("Barcelona"), "madrid") by {
      var place := "Barcelona";
      forall k | 0 <= k < |place|
        ensures place[k] != 'm' && place[k] != 'M'
      {
        assert place[k] in "Barcelona";
      }
      LacksLetterM(place);
    }
    LacksLetterM("");
  }

  /** A string without an m in either case does not contain "madrid" once lower-cased. */
  lemma LacksLetterM(s: string)
    requires forall k :: 0 <= k < |s| ==> s[k] != 'm' && s[k] != 'M'
    ensures !Text.Contains(Text.ToLower(s), "madrid")
  {
    FirstLetterMissing(Text.ToLower(s), "madrid");
  }

  /** "madrid" finds the station in locality "Madrid", whatever the case, and not the one in "Barcelona". */
  lemma MadridQuery()
    ensures Catalog.FilterStations([MADRID, BARCELONA], "madrid") == [MADRID]
  {
    QueryIsMadrid();
    MadridMatches();
    BarcelonaDoesNotMatch();
    FilterKeepsMatch(MADRID, BARCELONA, "madrid");
  }
}

=== FILE: seqs.dfy ===
/** Order-preserving selection over sequences (`Array.prototype.filter`). */
module Seqs {

  /** `a` can be obtained from `b` by deleting elements, keeping the order of the rest. */
  predicate IsSubsequence<T(==)>(a: seq<T>, b: seq<T>)
    decreases |b|
  {
    if a == [] then true
    else if b == [] then false
    else (a[0] == b[0] && IsSubsequence(a[1..], b[1..])) || IsSubsequence(a, b[1..])
  }

  /** The elements of `s` that satisfy `p`, in their original order. */
  function Filter<T(==,!new)>(s: seq<T>, p: T -> bool): (r: seq<T>)
    ensures |r| <= |s|
    ensures forall i :: 0 <= i < |r| ==> p(r[i])
    ensures forall x :: multiset(r)[x] == if p(x) then multiset(s)[x] else 0
  {
    if s == [] then []
    else
      assert s == [s[0]] + s[1..];
      var rest := Filter(s[1..], p);
      if p(s[0]) then [s[0]] + rest else rest
  }

  /** The filtered sequence keeps the original order. */
  lemma {:induction false} FilterIsSubsequence<T(!new)>(s: seq<T>, p: T -> bool)
    ensures IsSubsequence(Filter(s, p), s)
  {
    if s != [] {
      FilterIsSubsequence(s[1..], p);
      var rest := Filter(s[1..], p);
      if p(s[0]) {
        assert ([s[0]] + rest)[1..] == rest;
      }
    }
  }

  /** Filtering a sequence built from its head and tail. */
  lemma FilterCons<T(!new)>(y: T, r: seq<T>, p: T -> bool)
    ensures Filter([y] + r, p) == (if p(y) then [y] else []) + Filter(r, p)
  {
    assert ([y] + r)[0] == y && ([y] + r)[1..] == r;
  }

  /** The sum of `f` over the elements of `s` (a `reduce` with `+`). */
  function SumOf<T>(s: seq<T>, f: T -> nat): nat {
    if s == [] then 0 else f(s[0]) + SumOf(s[1..], f)
  }

  lemma {:induction false} SumOfAppend<T>(a: seq<T>, b: seq<T>, f: T -> nat)
    ensures SumOf(a + b, f) == SumOf(a, f) + SumOf(b, f)
  {
    if a == [] {
      assert a + b == b;
    } else {
      assert (a + b)[0] == a[0] && (a + b)[1..] == a[1..] + b;
      SumOfAppend(a[1..], b, f);
    }
  }

  /** A sum does not depend on the order of its terms. */
  lemma {:induction false} SumOfPermutation<T>(a: seq<T>, b: seq<T>, f: T -> nat)
    requires multiset(a) == multiset(b)
    ensures SumOf(a, f) == SumOf(b, f)
  {
    if a == [] {
      assert |multiset(b)| == 0;
    } else {
      var x := a[0];
      assert x in multiset(b);
      var m :| 0 <= m < |b| && b[m] == x;
      var rest := b[..m] + b[m + 1..];
      assert SumOf(b, f) == f(x) + SumOf(rest, f) by {
        assert b == b[..m] + ([b[m]] + b[m + 1..]);
        SumOfAppend(b[..m], [b[m]] + b[m + 1..], f);
        SumOfAppend(b[..m], b[m + 1..], f);
        assert ([b[m]] + b[m + 1..])[1..] == b[m + 1..];
      }
      assert multiset(rest) == multiset(a[1..]) by {
        assert b == b[..m] + ([b[m]] + b[m + 1..]);
        assert multiset(rest) == multiset(b) - multiset{x};
        assert a == [x] + a[1..];
        assert multiset(a[1..]) == multiset(a) - multiset{x};
      }
      SumOfPermutation(a[1..], rest, f);
    }
  }
}

=== FILE: station_card.dfy ===
/**
 * The station card (station-card.ts).  It knows only two fuel types: it
 * shows the diesel price when diesel is selected and the Gasolina 95 price
 * for every other selection.
 */
module StationCard {
  import opened Wrappers
  import opened Stations
  import Format

  /** `currentPrice`. */
  function CurrentPrice(s: Station, fuel: FuelType): (p: Option<Price>)
    ensures fuel == Diesel ==> p == GetPrice(s, Diesel)
    ensures fuel != Diesel ==> p == GetPrice(s, Gasolina95)
  {
    if fuel == Diesel then s.precioDiesel else s.precioGasolina95
  }

  /**
   * The card agrees with the catalogue's `getPrice` for diesel and
   * Gasolina 95, and shows the Gasolina 95 price instead for the others.
   */
  lemma CardPriceAgreesWithCatalog(s: Station, fuel: FuelType)
    ensures fuel == Diesel || fuel == Gasolina95 ==> CurrentPrice(s, fuel) == GetPrice(s, fuel)
    ensures CurrentPrice(s, fuel) == GetPrice(s, fuel) <==>
      fuel == Diesel || fuel == Gasolina95 || GetPrice(s, fuel) == GetPrice(s, Gasolina95)
  {
  }

  /** `fuelLabel`. */
  function FuelLabel(fuel: FuelType): (name: string)
    ensures name == "Diésel" <==> fuel == Diesel
    ensures name == "Gasolina 95" <==> fuel != Diesel
  {
    if fuel == Diesel then "Diésel" else "Gasolina 95"
  }

  /** `isCheap`: the shared cheaper-than-average test, on the card's price. */
  function CardIsCheap(s: Station, fuel: FuelType, average: nat): (cheap: bool)
    ensures cheap <==> CurrentPrice(s, fuel).Some? && average > 0 && CurrentPrice(s, fuel).value < average
    ensures average == 0 ==> !cheap
  {
    IsCheap(CurrentPrice(s, fuel), average)
  }

  /** `formattedDistance`: null without a distance, else the metres / kilometres label. */
  function FormattedDistance(s: Station): (r: Option<Format.DistanceLabel>)
    ensures r.None? <==> s.distancia.None?
    ensures r.Some? ==> (r.value.Metres? <==> s.distancia.value < 1.0)
    ensures r.Some? ==> r == Some(Format.FormatDistance(s.distancia.value))
  {
    match s.distancia
    case None => None
    case Some(d) => Some(Format.FormatDistance(d))
  }
}

=== FILE: stations.dfy ===
/**
 * Stations as the views see them: the record `mapRadioResponse` builds and
 * the one field-per-fuel lookup every view goes through (`getPrice`).
 * Prices are whole thousandths of a euro per litre; an absent price is
 * `None`, and a price of zero stays `Some(0)`.
 */
module Stations {
  import opened Wrappers

  /** Thousandths of a euro per litre. */
  type Price = nat

  datatype FuelType = Gasolina95 | Gasolina98 | Diesel | DieselPremium | Glp

  datatype Station = Station(
    idEstacion: int,
    nombre: string,
    direccion: string,
    latitud: real,
    longitud: real,
    provincia: Option<string>,
    localidad: Option<string>,
    marca: Option<string>,
    horario: Option<string>,
    distancia: Option<real>,                // kilometres
    precioDiesel: Option<Price>,
    precioDieselPremium: Option<Price>,
    precioGasolina95: Option<Price>,
    precioGasolina98: Option<Price>,
    precioGLP: Option<Price>,
    precioDieselMedia: Option<Price>,
    precioGasolina95Media: Option<Price>)

  /** `getPrice`: the price field that belongs to the fuel type. */
  function GetPrice(s: Station, fuel: FuelType): Option<Price> {
    match fuel
    case Diesel => s.precioDiesel
    case DieselPremium => s.precioDieselPremium
    case Gasolina95 => s.precioGasolina95
    case Gasolina98 => s.precioGasolina98
    case Glp => s.precioGLP
  }

  /**
   * The station with the price of one fuel type replaced.  An independent
   * description of which field belongs to which fuel type, to check
   * `GetPrice` against.
   */
  function SetPrice(s: Station, fuel: FuelType, p: Option<Price>): (r: Station)
    ensures r.idEstacion == s.idEstacion && r.nombre == s.nombre && r.direccion == s.direccion
    ensures r.precioDieselMedia == s.precioDieselMedia && r.precioGasolina95Media == s.precioGasolina95Media
  {
    match fuel
    case Gasolina95 => s.(precioGasolina95 := p)
    case Gasolina98 => s.(precioGasolina98 := p)
    case Diesel => s.(precioDiesel := p)
    case DieselPremium => s.(precioDieselPremium := p)
    case Glp => s.(precioGLP := p)
  }

  /**
   * Each fuel type reads its own field and no other: reading back a price
   * just written gives it, and writing one fuel's price leaves every other
   * fuel's price as it was.
   */
  lemma {:induction false} GetPriceReadsOwnField(s: Station, written: FuelType, read: FuelType, p: Option<Price>)
    ensures GetPrice(SetPrice(s, written, p), read) == if read == written then p else GetPrice(s, read)
  {
  }

  /**
   * The "cheaper than average" test shared by the map marker and the station
   * card: a price is present, the average is positive, and the price is below it.
   */
  predicate IsCheap(price: Option<Price>, average: nat) {
    price.Some? && average > 0 && price.value < average
  }
}

=== FILE: stats_bar.dfy ===
/**
 * The statistics bar (stats-bar.ts): how many stations the view holds, the
 * cheapest selected price, and what filling a 50-litre tank at the cheapest
 * station saves against the average.
 */
module StatsBar {
  import opened Wrappers
  import opened Stations
  import Catalog

  const TANK_LITRES := 50

  /** `stationCount`: the size of the sorted view, which is the size of the filter result. */
  function StationCount(st: Catalog.CatalogState): (n: nat)
    ensures n == |Catalog.FilteredStations(st)|
  {
    |Catalog.SortedStations(st)|
  }

  /** The smallest present, strictly positive price of the fuel type, or none. */
  function MinPositive(stations: seq<Station>, fuel: FuelType): (r: Option<Price>)
    ensures r.None? <==> forall s :: s in stations ==> !Catalog.HasPositivePrice(s, fuel)
    ensures r.Some? ==> r.value > 0
    ensures r.Some? ==> exists s :: s in stations && GetPrice(s, fuel) == r
    ensures r.Some? ==> forall s :: s in stations && Catalog.HasPositivePrice(s, fuel) ==> r.value <= GetPrice(s, fuel).value
  {
    if stations == [] then None
    else
      var head := stations[0];
      var rest := MinPositive(stations[1..], fuel);
      assert forall s :: s in stations <==> s == head || s in stations[1..];
      if !Catalog.HasPositivePrice(head, fuel) then rest
      else if rest.None? || GetPrice(head, fuel).value <= rest.value then GetPrice(head, fuel)
      else rest
  }

  /** `cheapest`, over the sorted view and the selected fuel type. */
  function Cheapest(st: Catalog.CatalogState): Option<Price> {
    MinPositive(Catalog.SortedStations(st), st.selectedFuelType)
  }

  /**
   * `savingsOnTank`, in thousandths of a euro: nothing without a cheapest
   * price, with a zero cheapest price, or with a non-positive average.
   */
  function SavingsOnTank(average: nat, cheapest: Option<Price>): (r: int)
    ensures cheapest.None? || cheapest == Some(0) || average == 0 ==> r == 0
    ensures cheapest.Some? && cheapest.value > 0 && average > 0 ==> r == (average - cheapest.value) * TANK_LITRES
  {
    if cheapest.None? || cheapest.value == 0 || average == 0 then 0
    else (average - cheapest.value) * TANK_LITRES
  }

  /**
   * The bar never shows a negative saving: the cheapest price and the
   * average are taken over the same positive prices, so the rounded mean
   * is at least the minimum.
   */
  lemma {:induction false} SavingsNeverNegative(st: Catalog.CatalogState)
    ensures Cheapest(st).Some? ==> Cheapest(st).value <= Catalog.Average(st)
    ensures SavingsOnTank(Catalog.Average(st), Cheapest(st)) >= 0
  {
    var view, fuel := Catalog.SortedStations(st), st.selectedFuelType;
    var c := MinPositive(view, fuel);
    if c.Some? {
      Catalog.NoPricesIffCountZero(view, fuel);
      var top := MaxPositive(view, fuel);
      Catalog.AverageBetween(view, fuel, c.value, top);
    }
  }

  /** An upper bound on the positive prices: their largest value. */
  function MaxPositive(stations: seq<Station>, fuel: FuelType): (hi: nat)
    ensures forall s :: s in stations && Catalog.HasPositivePrice(s, fuel) ==> GetPrice(s, fuel).value <= hi
  {
    if stations == [] then 0
    else
      var rest := MaxPositive(stations[1..], fuel);
      assert forall s :: s in stations <==> s == stations[0] || s in stations[1..];
      if Catalog.HasPositivePrice(stations[0], fuel) && GetPrice(stations[0], fuel).value > rest
      then GetPrice(stations[0], fuel).value else rest
  }

  /** There is a cheapest price exactly when the average is not zero. */
  lemma CheapestIffAverage(st: Catalog.CatalogState)
    ensures Cheapest(st).None? <==> Catalog.Average(st) == 0
  {
    Catalog.AverageZeroIffNoPrices(Catalog.SortedStations(st), st.selectedFuelType);
  }
}

=== FILE: text.dfy ===
/**
 * The string primitives the source relies on: `trim`, ASCII `toLowerCase` /
 * `toUpperCase`, and `includes`.
 */
module Text {

  /** The characters `String.prototype.trim` strips: white space and line terminators. */
  predicate IsWhitespace(c: char) {
    var n := c as int;
    n == 0x09 || n == 0x0A || n == 0x0B || n == 0x0C || n == 0x0D || n == 0x20
    || n == 0xA0 || n == 0x1680 || (0x2000 <= n <= 0x200A) || n == 0x2028 || n == 0x2029
    || n == 0x202F || n == 0x205F || n == 0x3000 || n == 0xFEFF
  }

  predicate AllWhitespace(s: string) {
    forall k :: 0 <= k < |s| ==> IsWhitespace(s[k])
  }

  /** `s` without its leading white space. */
  function TrimStart(s: string): (r: string)
    ensures |r| <= |s| && r == s[|s| - |r|..]
    ensures r == [] || !IsWhitespace(r[0])
    ensures AllWhitespace(s[..|s| - |r|])
  {
    if |s| > 0 && IsWhitespace(s[0]) then
      var r := TrimStart(s[1..]);
      assert s[..|s| - |r|] == [s[0]] + s[1..][..|s| - 1 - |r|];
      r
    else s
  }

  /** `s` without its trailing white space. */
  function TrimEnd(s: string): (r: string)
    ensures |r| <= |s| && r == s[..|r|]
    ensures r == [] || !IsWhitespace(r[|r| - 1])
    ensures AllWhitespace(s[|r|..])
  {
    if |s| > 0 && IsWhitespace(s[|s| - 1]) then
      var r := TrimEnd(s[..|s| - 1]);
      assert s[|r|..] == s[..|s| - 1][|r|..] + [s[|s| - 1]];
      r
    else s
  }

  /** `r` is a slice of `s` with nothing but white space around it. */
  predicate PaddedBy(s: string, r: string) {
    exists i :: 0 <= i <= |s| - |r| && r == s[i..i + |r|] && AllWhitespace(s[..i]) && AllWhitespace(s[i + |r|..])
  }

  /** `String.prototype.trim`. */
  function Trim(s: string): (r: string)
    ensures r == [] || (!IsWhitespace(r[0]) && !IsWhitespace(r[|r| - 1]))
    ensures r == [] <==> AllWhitespace(s)
    ensures PaddedBy(s, r)
  {
    var a := TrimStart(s);
    var r := TrimEnd(a);
    assert PaddedBy(s, r) by {
      TrimCore(s, a, r);
    }
    assert r == [] <==> AllWhitespace(s) by {
      TrimEmptyIff(s);
    }
    assert r == [] || (!IsWhitespace(r[0]) && !IsWhitespace(r[|r| - 1])) by {
      assert r == [] || r[0] == a[0];
    }
    r
  }

  /** The trimmed string sits in `s` between two runs of white space. */
  lemma TrimCore(s: string, a: string, r: string)
    requires |a| <= |s| && a == s[|s| - |a|..] && AllWhitespace(s[..|s| - |a|])
    requires |r| <= |a| && r == a[..|r|] && AllWhitespace(a[|r|..])
    ensures PaddedBy(s, r)
  {
    var i := |s| - |a|;
    assert r == s[i..i + |r|];
    assert a[|r|..] == s[i + |r|..];
  }

  /** Only a string of white space trims to nothing. */
  lemma TrimEmptyIff(s: string)
    ensures TrimEnd(TrimStart(s)) == [] <==> AllWhitespace(s)
  {
    var a := TrimStart(s);
    if a == [] {
      assert s[..|s|] == s;
    } else {
      // `a` starts with a character that is not white space, and trimming its end keeps it
      assert s[|s| - |a|] == a[0];
      assert a[|TrimEnd(a)|..] == a || a[0] == TrimEnd(a)[0];
    }
  }


  predicate IsLowerLetter(c: char) { 'a' <= c <= 'z' }
  predicate IsUpperLetter(c: char) { 'A' <= c <= 'Z' }

  function LowerChar(c: char): char {
    if IsUpperLetter(c) then (c as int + 32) as char else c
  }

  function UpperChar(c: char): char {
    if IsLowerLetter(c) then (c as int - 32) as char else c
  }

  /** `toLowerCase`, on the ASCII letters. */
  function ToLower(s: string): (r: string)
    ensures |r| == |s|
    ensures forall i :: 0 <= i < |s| ==> r[i] == LowerChar(s[i])
  {
    seq(|s|, i requires 0 <= i < |s| => LowerChar(s[i]))
  }

  /** `toUpperCase`, on the ASCII letters. */
  function ToUpper(s: string): (r: string)
    ensures |r| == |s|
    ensures forall i :: 0 <= i < |s| ==> r[i] == UpperChar(s[i])
  {
    seq(|s|, i requires 0 <= i < |s| => UpperChar(s[i]))
  }

  /** `needle` occurs in `hay` starting at index `i`. */
  ghost predicate OccursAt(needle: string, hay: string, i: int) {
    0 <= i && i + |needle| <= |hay| && hay[i..i + |needle|] == needle
  }

  /** `hay.includes(needle)`: the empty needle occurs everywhere. */
  function Contains(hay: string, needle: string): (r: bool)
    ensures r <==> exists i :: OccursAt(needle, hay, i)
    decreases |hay|
  {
    if |needle| > |hay| then false
    else if hay[..|needle|] == needle then
      assert OccursAt(needle, hay, 0);
      true
    else
      OccursLater(hay, needle);
      Contains(hay[1..], needle)
  }

  /** When `needle` is not a prefix of `hay`, its occurrences are those in `hay[1..]`, shifted. */
  lemma OccursLater(hay: string, needle: string)
    requires |needle| <= |hay| && hay[..|needle|] != needle
    ensures (exists i :: OccursAt(needle, hay, i)) <==> (exists i :: OccursAt(needle, hay[1..], i))
  {
    if i :| OccursAt(needle, hay[1..], i) {
      assert OccursAt(needle, hay, i + 1);
    }
    if i :| OccursAt(needle, hay, i) {
      assert OccursAt(needle, hay[1..], i - 1);
    }
  }

  /** The upper-cased, trimmed form brand names are compared in. */
  function Normalize(s: string): string {
    Trim(ToUpper(s))
  }

  /** Case does not survive normalisation: lower-casing first changes nothing. */
  lemma NormalizeIgnoresCase(s: string)
    ensures Normalize(ToLower(s)) == Normalize(s)
  {
    var l, r := ToUpper(ToLower(s)), ToUpper(s);
    forall k | 0 <= k < |l|
      ensures l[k] == r[k]
    {
      assert ToLower(s)[k] == LowerChar(s[k]);
    }
    assert l == r;
  }

  /** Surrounding white space does not survive normalisation. */
  lemma {:induction false} NormalizeIgnoresPadding(pre: string, s: string, post: string)
    requires AllWhitespace(pre) && AllWhitespace(post)
    ensures Normalize(pre + s + post) == Normalize(s)
  {
    UpperConcat(pre, s);
    UpperConcat(pre + s, post);
    UpperOfBlank(pre);
    UpperOfBlank(post);
    TrimPadding(pre, ToUpper(s), post);
  }

  /** Lower-casing a string lower-cases its head and then its tail. */
  lemma LowerCons(m: string)
    requires m != []
    ensures ToLower(m) == [LowerChar(m[0])] + ToLower(m[1..])
  {
    var l, r := ToLower(m), [LowerChar(m[0])] + ToLower(m[1..]);
    forall k | 0 <= k < |l|
      ensures l[k] == r[k]
    {
      if k > 0 {
        assert r[k] == ToLower(m[1..])[k - 1] && m[1..][k - 1] == m[k];
      }
    }
  }

  /** Upper-casing works character by character, so it distributes over concatenation. */
  lemma UpperConcat(a: string, b: string)
    ensures ToUpper(a + b) == ToUpper(a) + ToUpper(b)
  {
    var l, r := ToUpper(a + b), ToUpper(a) + ToUpper(b);
    forall k | 0 <= k < |l|
      ensures l[k] == r[k]
    {
      if k < |a| {
        assert (a + b)[k] == a[k];
      } else {
        assert (a + b)[k] == b[k - |a|];
      }
    }
  }

  /** White space has no case. */
  lemma UpperOfBlank(w: string)
    requires AllWhitespace(w)
    ensures ToUpper(w) == w
  {
    assert forall k :: 0 <= k < |w| ==> !IsLowerLetter(w[k]);
  }

  /** A blank string normalises to the empty string. */
  lemma NormalizeBlank(s: string)
    requires AllWhitespace(s)
    ensures Normalize(s) == []
  {
    assert AllWhitespace(ToUpper(s));
  }

  /** Normalising twice is normalising once. */
  lemma NormalizeIdempotent(s: string)
    ensures Normalize(Normalize(s)) == Normalize(s)
  {
    var t := Trim(ToUpper(s));
    UpperOfTrimmedUpper(s);
    TrimOfTrimmed(t);
  }

  lemma {:induction false} UpperOfTrimmedUpper(s: string)
    ensures ToUpper(Trim(ToUpper(s))) == Trim(ToUpper(s))
  {
    UpperOfUpperSlice(s, Trim(ToUpper(s)));
  }

  /** A slice of an upper-cased string is already upper-cased. */
  lemma UpperOfUpperSlice(s: string, t: string)
    requires PaddedBy(ToUpper(s), t)
    ensures ToUpper(t) == t
  {
    var u := ToUpper(s);
    var i :| 0 <= i <= |u| - |t| && t == u[i..i + |t|] && AllWhitespace(u[..i]) && AllWhitespace(u[i + |t|..]);
    UpperSlice(u, i, i + |t|);
    UpperIdempotent(s);
  }

  lemma UpperIdempotent(s: string)
    ensures ToUpper(ToUpper(s)) == ToUpper(s)
  {
  }

  lemma UpperSlice(u: string, i: nat, j: nat)
    requires i <= j <= |u|
    ensures ToUpper(u[i..j]) == ToUpper(u)[i..j]
  {
  }

  lemma TrimOfTrimmed(t: string)
    requires t == [] || (!IsWhitespace(t[0]) && !IsWhitespace(t[|t| - 1]))
    ensures Trim(t) == t
  {
    assert TrimStart(t) == t;
    assert TrimEnd(t) == t;
  }

  /** Trimming strips exactly the padding around the trimmed core. */
  lemma {:induction false} TrimPadding(pre: string, s: string, post: string)
    requires AllWhitespace(pre) && AllWhitespace(post)
    ensures Trim(pre + s + post) == Trim(s)
  {
    TrimStartPadding(pre, s + post);
    assert pre + s + post == pre + (s + post);
    var a := TrimStart(s + post);
    if AllWhitespace(s) {
      assert AllWhitespace(s + post);
      assert TrimStart(s + post) == [];
      assert Trim(s) == [];
    } else {
      var j :| 0 <= j < |s| && !IsWhitespace(s[j]);
      TrimStartPrefix(s, post);
      assert a == TrimStart(s) + post;
      TrimEndPadding(TrimStart(s), post);
    }
  }

  lemma {:induction false} TrimStartPadding(pre: string, s: string)
    requires AllWhitespace(pre)
    ensures TrimStart(pre + s) == TrimStart(s)
  {
    if pre == [] {
      assert pre + s == s;
    } else {
      assert (pre + s)[0] == pre[0] && IsWhitespace(pre[0]);
      assert (pre + s)[1..] == pre[1..] + s;
      assert AllWhitespace(pre[1..]);
      TrimStartPadding(pre[1..], s);
    }
  }

  lemma {:induction false} TrimStartPrefix(s: string, post: string)
    requires !AllWhitespace(s)
    ensures TrimStart(s + post) == TrimStart(s) + post
  {
    if IsWhitespace(s[0]) {
      assert (s + post)[1..] == s[1..] + post;
      assert !AllWhitespace(s[1..]) by {
        var j :| 0 <= j < |s| && !IsWhitespace(s[j]);
        assert s[1..][j - 1] == s[j];
      }
      TrimStartPrefix(s[1..], post);
    }
  }

  lemma {:induction false} TrimEndPadding(s: string, post: string)
    requires AllWhitespace(post)
    ensures TrimEnd(s + post) == TrimEnd(s)
  {
    if post == [] {
      assert s + post == s;
    } else {
      var n := |post| - 1;
      assert (s + post)[|s + post| - 1] == post[n] && IsWhitespace(post[n]);
      assert (s + post)[..|s + post| - 1] == s + post[..n];
      assert AllWhitespace(post[..n]);
      TrimEndPadding(s, post[..n]);
    }
  }
}

=== FILE: theme.dfy ===
/**
 * The theme service (theme.service.ts).  The mode is kept as the string it
 * is stored as: `loadSavedTheme` returns whatever is stored without
 * checking it, so a mode may be any string, and `resolve` passes every
 * string other than "system" through unchanged.  The browser's colour
 * preference is `None` where there is no `window` (no media query).
 */
module Theme {
  import opened Wrappers

  const LIGHT := "light"
  const DARK := "dark"
  const SYSTEM := "system"
  const STORAGE_KEY := "surtigo-theme"

  /** The modes `setTheme` is meant to receive. */
  predicate IsMode(m: string) {
    m == SYSTEM || m == LIGHT || m == DARK
  }

  /** `['system', 'light', 'dark']`, the order `cycleTheme` walks. */
  const ORDER: seq<string> := [SYSTEM, LIGHT, DARK]

  /** `Array.prototype.indexOf`: the first position of `x`, or -1. */
  function IndexOf(s: seq<string>, x: string): (i: int)
    ensures -1 <= i < |s|
    ensures i == -1 <==> x !in s
    ensures i >= 0 ==> s[i] == x && forall j :: 0 <= j < i ==> s[j] != x
  {
    if s == [] then -1
    else if s[0] == x then 0
    else
      var i := IndexOf(s[1..], x);
      if i == -1 then -1 else i + 1
  }

  /** The mode after `cycleTheme`: system, light, dark, system, ...; an unknown mode goes to system. */
  function NextMode(mode: string): (next: string)
    ensures mode == SYSTEM ==> next == LIGHT
    ensures mode == LIGHT ==> next == DARK
    ensures mode == DARK ==> next == SYSTEM
    ensures !IsMode(mode) ==> next == SYSTEM
  {
    var current := IndexOf(ORDER, mode);
    ORDER[(current + 1) % |ORDER|]
  }

  /** Three steps of the cycle come back to the start; one step always lands on a real mode. */
  lemma CycleReturns(mode: string)
    ensures IsMode(NextMode(mode))
    ensures IsMode(mode) ==> NextMode(NextMode(NextMode(mode))) == mode
  {
  }

  /** `resolve`: "system" follows the colour preference, every other mode is its own resolution. */
  function Resolve(mode: string, prefersDark: Option<bool>): (r: string)
    ensures mode == SYSTEM ==> (r == DARK <==> prefersDark == Some(true)) && (r == LIGHT || r == DARK)
    ensures mode != SYSTEM ==> r == mode
    ensures IsMode(mode) ==> r == LIGHT || r == DARK
  {
    if mode == SYSTEM then (if prefersDark == Some(true) then DARK else LIGHT)
    else mode
  }

  /**
   * What local storage holds: `None` when there is no storage at all, else
   * the value under the theme key, if any.
   */
  type Storage = Option<Option<string>>

  /** `loadSavedTheme`: "dark" without storage or without a stored value, else the stored string as is. */
  function LoadSavedTheme(storage: Storage): (m: string)
    ensures storage.None? || storage.value.None? ==> m == DARK
    ensures storage.Some? && storage.value.Some? ==> m == storage.value.value
  {
    match storage
    case None => DARK
    case Some(None) => DARK
    case Some(Some(v)) => v
  }

  datatype ThemeState = ThemeState(
    mode: string,
    resolvedTheme: string,
    storage: Storage,
    prefersDark: Option<bool>)

  /** The resolved theme is the resolution of the current mode. */
  predicate Applied(st: ThemeState) {
    st.resolvedTheme == Resolve(st.mode, st.prefersDark)
  }

  /**
   * The service right after its fields are initialised.  `resolvedTheme`
   * is initialised before the media query is, so "system" first resolves
   * as if there were no preference.
   */
  function Construct(storage: Storage, prefersDark: Option<bool>): (st: ThemeState)
    ensures st.mode == LoadSavedTheme(storage) && st.storage == storage && st.prefersDark == prefersDark
    ensures st.resolvedTheme == Resolve(LoadSavedTheme(storage), None)
  {
    var saved := LoadSavedTheme(storage);
    ThemeState(saved, Resolve(saved, None), storage, prefersDark)
  }

  /** `applyTheme`'s state update, which the mode effect runs on every mode change. */
  function ApplyTheme(st: ThemeState): (r: ThemeState)
    ensures Applied(r)
    ensures r.mode == st.mode && r.storage == st.storage && r.prefersDark == st.prefersDark
  {
    st.(resolvedTheme := Resolve(st.mode, st.prefersDark))
  }

  /** The service once its first mode effect has run. */
  function Start(storage: Storage, prefersDark: Option<bool>): (st: ThemeState)
    ensures Applied(st) && st.mode == LoadSavedTheme(storage)
    ensures IsMode(LoadSavedTheme(storage)) ==> st.resolvedTheme == LIGHT || st.resolvedTheme == DARK
  {
    ApplyTheme(Construct(storage, prefersDark))
  }

  /**
   * `setTheme`, followed by the mode effect: the mode is set and applied,
   * and stored under the theme key.  Without storage `setItem` throws after
   * the mode has been set, so the mode still changes and the effect still
   * applies it, but nothing is stored.
   */
  function SetTheme(st: ThemeState, mode: string): (r: ThemeState)
    ensures r.mode == mode && Applied(r)
    ensures st.storage.Some? ==> r.storage == Some(Some(mode)) && LoadSavedTheme(r.storage) == mode
    ensures st.storage.None? ==> r.storage == None
    ensures r.prefersDark == st.prefersDark
  {
    var changed := st.(mode := mode);
    ApplyTheme(if st.storage.Some? then changed.(storage := Some(Some(mode))) else changed)
  }

  /** `cycleTheme`. */
  function CycleTheme(st: ThemeState): (r: ThemeState)
    ensures r.mode == NextMode(st.mode) && IsMode(r.mode) && Applied(r)
    ensures r.resolvedTheme == LIGHT || r.resolvedTheme == DARK
  {
    SetTheme(st, NextMode(st.mode))
  }

  /**
   * The media-query listener: the preference changes, and the theme is
   * re-applied only in "system" mode.  Without a media query there is no
   * listener to call.
   */
  function OnSystemPreferenceChange(st: ThemeState, prefersDark: bool): (r: ThemeState)
    ensures st.prefersDark.None? ==> r == st
    ensures st.prefersDark.Some? ==> r.prefersDark == Some(prefersDark) && r.mode == st.mode
    ensures st.prefersDark.Some? && st.mode != SYSTEM ==> r.resolvedTheme == st.resolvedTheme
    ensures st.prefersDark.Some? && st.mode == SYSTEM ==> r.resolvedTheme == Resolve(SYSTEM, Some(prefersDark))
  {
    if st.prefersDark.None? then st
    else
      var changed := st.(prefersDark := Some(prefersDark));
      if st.mode == SYSTEM then ApplyTheme(changed) else changed
  }

  /** Every operation after start-up keeps the resolved theme in step with the mode. */
  lemma {:induction false} OperationsKeepThemeApplied(st: ThemeState, mode: string, prefersDark: bool)
    requires Applied(st)
    ensures Applied(SetTheme(st, mode))
    ensures Applied(CycleTheme(st))
    ensures Applied(OnSystemPreferenceChange(st, prefersDark))
  {
  }

  /**
   * Before the first mode effect, a "system" mode shows light even when
   * the system prefers dark; the effect corrects it.
   */
  lemma {:induction false} SystemModeStartsLight()
    ensures Construct(Some(Some(SYSTEM)), Some(true)).resolvedTheme == LIGHT
    ensures Start(Some(Some(SYSTEM)), Some(true)).resolvedTheme == DARK
  {
  }

  /**
   * An unknown stored string is neither checked nor replaced: it becomes the
   * mode and the resolved theme, and the next cycle goes to "system".
   */
  lemma {:induction false} UnknownStoredModePassesThrough()
    ensures Start(Some(Some("blue")), Some(true)).resolvedTheme == "blue"
    ensures CycleTheme(Start(Some(Some("blue")), Some(true))).mode == SYSTEM
  {
    assert !IsMode("blue");
  }
}

=== FILE: wrappers.dfy ===
/** Optional values: the model's rendering of TypeScript's `undefined` / `null`. */
module Wrappers {

  datatype Option<+T> = None | Some(value: T) {

    /** The value, or `default` when absent (the `??` operator). */
    function GetOr(default: T): T {
      match this
      case Some(v) => v
      case None => default
    }
  }
}
